=== FILE: README.md ===
# Movie success prediction engine — a Dafny model

This project models the scoring core of a box-office prediction dashboard. Given a
movie's metadata (genre, language, budget in millions, runtime, release month, lead-actor
popularity, director score, trailer sentiment, social buzz, franchise and award-crew flags),
`predictMovieSuccess` engineers ten features from lookup tables and rescalings, takes a
fixed weighted sum, adjusts it for language market size and extreme runtimes, and clamps it
to a 5–98 percent success probability. From that probability it derives a risk level with
budget-dependent thresholds, a revenue band, the revenue at risk, eight feature
contributions sorted by magnitude, an explanation and a list of recommendations.

Modules follow the source's structure:

- `Rounding` — `Math.round` (ties go up) and rounding to one decimal.
- `LookupTable` — string- and number-keyed object literals as association lists, and the
  `table[key] || 0.5` fallback.
- `MovieData` — the movie record, the genre, language and release-month tables, the
  sample movies, and the budget risk ratio steps.
- `Features` — feature engineering.
- `Probability` — weights, language and runtime adjustment, clamping, the reported value.
- `Financial` — risk level, revenue estimate, revenue at risk.
- `FeatureImportance` — the eight contributions and their stable sort by `|impact|`.
- `Narrative` — explanation and recommendation rules.
- `PredictionEngine` — the whole pipeline and worked examples on the sample movies.

Numbers are exact `real`s. Sentences are tag datatypes. Each tag carries the values its
sentence interpolates, so "which sentences appear, in which order, with which numbers" is
stated exactly.

Two boundary facts are worth stating plainly:

- The runtime penalty applies only for `runtime < 80` or `runtime > 180`. Runtimes of
  exactly 80 and exactly 180 minutes are not penalised (`Probability.RuntimeBoundaries`).
- The horror sample "Whispers in the Dark" has a clamped probability of 57.275, reported as
  57.3. At its budget of 25 the thresholds are 66.25 and 46.25, so it is Medium risk
  (`PredictionEngine.WhispersInTheDarkExample`).

Three quirks of the code are stated as lemmas rather than corrected, because the code does
not say which half is intended:

- The Budget Risk contribution's `impact` has the opposite sign to its `isPositive` flag.
- At a budget of exactly 100, the "manageable budget" description is flagged negative.
- Release Timing is flagged positive only from an advantage of 0.6, that is from an impact
  of 0.15. February, April and September (0.55) have a positive impact of 0.075 but a
  negative flag.

## Model

| member | source | states |
|---|---|---|
| Rounding.Round | src/lib/predictionEngine.ts:126-128 | `Math.round` yields the integer n with x − ½ < n ≤ x + ½ (ties round up) |
| Rounding.RoundIsNearest | src/lib/predictionEngine.ts:126-128 | any integer within that half-open window is the rounded value, so the rounding is uniquely determined |
| Rounding.RoundMonotone | src/lib/predictionEngine.ts:126-134 | rounding never reverses the order of two values |
| Rounding.RoundToTenth | src/lib/predictionEngine.ts:67 | the reported probability is within 0.05 of the exact one and has at most one decimal digit |
| Rounding.RoundToTenthIdempotent | src/lib/predictionEngine.ts:67 | rounding an already-reported value to a tenth leaves it unchanged |
| Rounding.RoundToTenthWithin | src/lib/predictionEngine.ts:67 | rounding to a tenth keeps a value inside any interval whose ends are whole tenths |
| LookupTable.Lookup | src/lib/predictionEngine.ts:92-97 | a key is found exactly when it is one of the table's keys, and then the pair is stored in the table |
| LookupTable.LookupOrNeutral | src/lib/predictionEngine.ts:92-97 | a missing key gives the neutral 0.5; any other result is a value stored under that key |
| LookupTable.KnownKeyIsStoredValue | src/lib/predictionEngine.ts:92-97 | for a table with no zero entry, a known key yields its stored value, so the `|| 0.5` fallback never replaces a real entry |
| LookupTable.LookupAt | src/lib/predictionEngine.ts:92-97 | in a table with distinct keys, looking up the i-th key yields the i-th value |
| LookupTable.LookupWithin | src/lib/predictionEngine.ts:92-97 | if every stored value and 0.5 lie in [lo, hi], so does every lookup with fallback |
| MovieData.BudgetRiskRatio | src/lib/movieData.ts:89-96 | the ratio is one of 0.75, 0.65, 0.55, 0.45, 0.35, 0.25 and lies in [0.25, 0.75] |
| MovieData.BudgetRiskRatioAntitone | src/lib/movieData.ts:89-96 | a larger budget never has a larger risk ratio |
| MovieData.BudgetRiskRatioSteps | src/lib/movieData.ts:90-95 | each step starts exactly at 20, 50, 100, 150 and 200: the value just below a boundary differs from the value at it |
| MovieData.GenreTableFacts | src/lib/movieData.ts:39-56 | the genre table has distinct keys, no zero entry and every index in [0.35, 0.75] |
| MovieData.LanguageTableFacts | src/lib/movieData.ts:59-70 | the language table has distinct keys, no zero entry, values in [0.4, 1.0], and English is 1.0 |
| MovieData.ReleaseMonthKeys | src/lib/movieData.ts:73-86 | the release table's keys are exactly the months 1 to 12, listed in calendar order |
| MovieData.ReleaseTimingValues | src/lib/movieData.ts:73-86 | every release-timing advantage is in [0.5, 0.95] and none is zero |
| MovieData.DecemberIsPeak | src/lib/movieData.ts:73-86 | December's advantage is 0.95, and no month, listed or not, has a larger one |
| MovieData.KeyListsMatchTables | src/lib/movieData.ts:144-145 | the genre and language lists hold 16 and 10 distinct names, exactly the tables' keys |
| Features.EngineerFeatures | src/lib/predictionEngine.ts:90-103 | each rescaled feature inverts back to its input, flags are 1 exactly when the boolean holds, unknown categories give 0.5, table features stay in their tables' ranges, and documented-range inputs give features in [0, 1] |
| Features.KnownCategoriesUseTables | src/lib/predictionEngine.ts:92-97 | a listed genre, listed language or month 1–12 yields the table's own value, never the fallback |
| Probability.WeightsSumToOne | src/lib/predictionEngine.ts:17-27 | the nine weights sum to exactly 1 |
| Probability.WeightedSum | src/lib/predictionEngine.ts:29-38 | no contract of its own: the nine-term weighted sum; `Probability.WeightedSumInUnit` and `Probability.WeightedSumMonotone` state its range and monotonicity |
| Probability.WeightedSumInUnit | src/lib/predictionEngine.ts:29-38 | for features in [0, 1], the weighted sum is in [0, 1] |
| Probability.WeightedSumMonotone | src/lib/predictionEngine.ts:29-38 | raising any feature never lowers the weighted sum |
| Probability.LanguageFactor | src/lib/predictionEngine.ts:41 | for a multiplier in [0, 1], the factor is in [0.5, 1]; it is 1 exactly for multiplier 1 and 0.5 exactly for 0 |
| Probability.RuntimeFactor | src/lib/predictionEngine.ts:44-46 | the factor is 0.9 exactly when the runtime is below 80 or above 180, and 1 otherwise |
| Probability.RuntimeBoundaries | src/lib/predictionEngine.ts:44 | 80 and 180 minutes are not penalised; anything just outside them is |
| Probability.Score | src/lib/predictionEngine.ts:29-46 | no contract of its own: the weighted sum after the language and runtime adjustments; `Probability.ScoreInUnit` and `Probability.ScoreMonotone` state its range and monotonicity |
| Probability.Scaled | src/lib/predictionEngine.ts:40-46 | no contract of its own: the product of the sum and the two factors; `Probability.ScaledInUnit` states that it stays in [0, 1] |
| Probability.ScaledInUnit | src/lib/predictionEngine.ts:40-46 | a sum and two factors in [0, 1] give a product in [0, 1] |
| Probability.ScoreInUnit | src/lib/predictionEngine.ts:29-46 | the adjusted score stays in [0, 1] for normalised features |
| Probability.ScoreMonotone | src/lib/predictionEngine.ts:29-46 | at a shared runtime, raising any normalised feature, language included, never lowers the adjusted score |
| Probability.Clamp | src/lib/predictionEngine.ts:49 | the result lies in [lo, hi], equals lo exactly when x ≤ lo, hi exactly when x ≥ hi, and x otherwise |
| Probability.ClampMonotone | src/lib/predictionEngine.ts:49 | clamping preserves order |
| Probability.SuccessProbability | src/lib/predictionEngine.ts:48-49 | the probability is always in [5, 98], whatever the features |
| Probability.ReportedProbability | src/lib/predictionEngine.ts:67 | the reported value stays in [5, 98], is within 0.05 of the exact one and has one decimal |
| Probability.SuccessProbabilityMonotone | src/lib/predictionEngine.ts:29-49 | at a shared runtime, raising any normalised feature, language included, never lowers the probability |
| Financial.GetRiskLevel | src/lib/predictionEngine.ts:105-114 | Low exactly at or above 65 + 5·min(budget/100, 1.5), High exactly below 45 + that; for budget ≥ 0, ≥ 72.5 is always Low, < 45 always High, ≥ 52.5 never High |
| Financial.BudgetFactor | src/lib/predictionEngine.ts:107 | no contract of its own: `min(budget/100, 1.5)`; `Financial.RiskLevelSaturates` and `Financial.RiskLevelMonotoneInBudget` state its cap and its monotone effect |
| Financial.LowRiskThreshold | src/lib/predictionEngine.ts:108 | no contract of its own: 65 + 5·factor; `Financial.GetRiskLevel` and `Financial.ThresholdGap` state what it decides |
| Financial.MediumRiskThreshold | src/lib/predictionEngine.ts:109 | no contract of its own: 45 + 5·factor; `Financial.GetRiskLevel` and `Financial.ThresholdGap` state what it decides |
| Financial.ThresholdGap | src/lib/predictionEngine.ts:108-109 | the Low threshold is always exactly 20 above the Medium threshold |
| Financial.RiskLevelMonotoneInProbability | src/lib/predictionEngine.ts:105-114 | at a fixed budget, a higher probability never gives a more severe level |
| Financial.RiskLevelMonotoneInBudget | src/lib/predictionEngine.ts:105-114 | at a fixed probability, a larger budget never gives a less severe level |
| Financial.RiskLevelSaturates | src/lib/predictionEngine.ts:107 | any two budgets of 150 or more give the same level |
| Financial.ExpectedRevenue | src/lib/predictionEngine.ts:118-121 | no contract of its own: budget·(probability/50)·1.2 before rounding; `Financial.RevenueBand` and `Financial.EstimateRevenueMonotone` state its sign, zeros and monotonicity |
| Financial.EstimateRevenue | src/lib/predictionEngine.ts:116-130 | each figure is the nearest integer (ties up) to its point of the ±40% band around budget·(probability/50)·1.2; for a non-negative budget and probability, 0 ≤ min ≤ expected ≤ max; a negative budget reverses the order; zero budget or probability gives all zeros |
| Financial.RevenueBand | src/lib/predictionEngine.ts:118-123 | the rounded −40%, expected and +40% figures are ordered and non-negative for a non-negative budget, reversed for a negative one, and the expected revenue is 0 when budget or probability is 0 |
| Financial.EstimateRevenueMonotone | src/lib/predictionEngine.ts:116-130 | for a non-negative budget, a higher probability never lowers min, expected or max |
| Financial.RevenueAtRisk | src/lib/predictionEngine.ts:132-135 | the result is the nearest integer (ties up) to budget·((100 − probability)/100)·0.8, the failure-weighted 80% of the budget; revenue at risk is non-negative for budget ≥ 0 and probability ≤ 100, at most the rounded 80% of the budget for a non-negative probability, and 0 at probability 100 |
| Financial.Loss | src/lib/predictionEngine.ts:133-134 | no contract of its own: budget·((100 − probability)/100)·0.8 before rounding; `Financial.LossBounds` and `Financial.RevenueAtRiskAntitone` state its bounds and monotonicity |
| Financial.LossBounds | src/lib/predictionEngine.ts:133-134 | the rounded loss is non-negative for budget ≥ 0 and probability ≤ 100, and at most the rounded 80% of the budget for a non-negative probability |
| Financial.RevenueAtRiskAntitone | src/lib/predictionEngine.ts:132-135 | for a non-negative budget, a higher probability never raises the revenue at risk |
| FeatureImportance.LabelsDistinct | src/lib/predictionEngine.ts:140-194 | the eight display names ("Lead Actor Popularity" … "Franchise Factor") are pairwise different, so a name identifies its feature |
| FeatureImportance.Contribution | src/lib/predictionEngine.ts:138-201 | each contribution names its feature; its flag follows each feature's own rule (the impact's sign for most, impact ≥ 0.15 for Release Timing, the opposite sign for Budget Risk); a favourable description comes with a positive flag (Budget Risk at exactly 100 excepted); the impact is in [−1, 1] for in-range inputs |
| FeatureImportance.ManageableBudgetFlaggedNegativeAtHundred | src/lib/predictionEngine.ts:185-192 | at a budget of exactly 100, Budget Risk says "manageable" yet is flagged negative with a positive impact |
| FeatureImportance.BudgetImpactOpposesFlag | src/lib/predictionEngine.ts:185-192 | below a budget of 100, Budget Risk is flagged positive but its impact is negative |
| FeatureImportance.SmallTimingGainFlaggedNegative | src/lib/predictionEngine.ts:161-168 | a timing advantage strictly between 0.5 and 0.6 gives a positive Release Timing impact below 0.15 with a negative flag |
| FeatureImportance.AprilTimingFlaggedNegative | src/lib/predictionEngine.ts:161-168 | for an April release the Release Timing impact is 0.075 and the flag is negative |
| FeatureImportance.AprilAdvantage | src/lib/movieData.ts:73-86 | April's release-timing advantage is 0.55 |
| FeatureImportance.Contributions | src/lib/predictionEngine.ts:138-201 | exactly eight contributions, the i-th for the i-th declared feature, each feature exactly once, every flag following its feature's rule |
| FeatureImportance.Magnitude | src/lib/predictionEngine.ts:204 | no contract of its own: `Math.abs(impact)`, the sort key; `FeatureImportance.SortByMagnitude` and `FeatureImportance.SortKeepsRuns` state the order it induces |
| FeatureImportance.Insert | src/lib/predictionEngine.ts:204 | inserting into a magnitude-sorted list lengthens it by one, its members are the old ones plus the new element, and it stays sorted |
| FeatureImportance.InsertPermutes | src/lib/predictionEngine.ts:204 | insertion adds exactly one copy of the element to the multiset of contributions |
| FeatureImportance.SortByMagnitude | src/lib/predictionEngine.ts:203-204 | the result is a permutation of the input sorted by non-increasing `abs(impact)` |
| FeatureImportance.InsertRuns | src/lib/predictionEngine.ts:204 | insertion puts the new element at the front of its equal-magnitude run |
| FeatureImportance.SortKeepsRuns | src/lib/predictionEngine.ts:204 | the sort is stable: for each magnitude, the contributions of that magnitude keep their original order |
| FeatureImportance.InsertCounts | src/lib/predictionEngine.ts:204 | insertion raises the count of the inserted element's feature by one and no other |
| FeatureImportance.SortKeepsCounts | src/lib/predictionEngine.ts:204 | sorting does not change how often each feature occurs |
| FeatureImportance.SortedRunsDetermine | src/lib/predictionEngine.ts:204 | two magnitude-sorted lists with the same run for every magnitude are equal |
| FeatureImportance.StableSortIsUnique | src/lib/predictionEngine.ts:203-204 | any sorted list that keeps every run of the input is this sort's result, so the model matches any stable sort with this comparator |
| FeatureImportance.CountDistinct | src/lib/predictionEngine.ts:138-201 | in a list of pairwise-different features, a feature at some position is counted exactly once |
| FeatureImportance.CountAbsent | src/lib/predictionEngine.ts:138-201 | a feature at no position is counted zero times |
| FeatureImportance.CountDeclared | src/lib/predictionEngine.ts:138-201 | a list following the declared feature order holds each feature exactly once |
| FeatureImportance.CalculateFeatureImportance | src/lib/predictionEngine.ts:137-205 | eight contributions, a stable permutation of the declared ones sorted by `abs(impact)`, each feature exactly once, flags follow the sign rules, favourable descriptions flagged positive (Budget Risk at 100 excepted), impacts in [−1, 1] for in-range inputs |
| Narrative.Tier | src/lib/predictionEngine.ts:210-216 | the opening sentence is strong exactly at ≥ 70, moderate exactly in [50, 70) and elevated risk exactly below 50 |
| Narrative.GenerateExplanation | src/lib/predictionEngine.ts:207-235 | one to five sentences, opening with the tier sentence for the probability, the rest in the code's rule order |
| Narrative.OnlyOpeningIsTier | src/lib/predictionEngine.ts:207-235 | the first sentence is the tier (strong exactly at ≥ 70, moderate in [50, 70), elevated risk below 50) and no later sentence is a tier |
| Narrative.ExplanationPrefix | src/lib/predictionEngine.ts:207-228 | the tier sentence followed by star-power, peak-season and trailer sentences with this movie's values, each present exactly when its rule fires, in that order |
| Narrative.StarPowerRule | src/lib/predictionEngine.ts:218-220 | the star-power sentence appears exactly when the actor score is at least 0.7 |
| Narrative.PeakSeasonRule | src/lib/predictionEngine.ts:222-224 | the peak-season sentence appears exactly when the timing advantage is at least 0.8 |
| Narrative.TrailerAnticipationRule | src/lib/predictionEngine.ts:226-228 | the trailer sentence, carrying `round(sentiment·100)`, appears exactly when sentiment exceeds 0.6 |
| Narrative.HighBudgetRule | src/lib/predictionEngine.ts:230-232 | the break-even warning appears exactly when budget > 150 and probability < 60 |
| Narrative.EveryExplanationRuleFires | src/lib/predictionEngine.ts:207-235 | when the strong tier and the three signal rules fire and the break-even rule does not, the explanation is exactly those four sentences in order |
| Narrative.PrefixWhenAllFire | src/lib/predictionEngine.ts:207-228 | when the strong tier and the three signal rules fire, the first four sentences are exactly those, in order |
| Narrative.ExplanationHasNothingElse | src/lib/predictionEngine.ts:207-235 | after the tier, only the four rule sentences, with this movie's values, can appear |
| Narrative.AppendExplanation | src/lib/predictionEngine.ts:218-232 | a conditional push adds the sentence exactly when its rule fires and keeps the rule order |
| Narrative.AppendRecommendation | src/lib/predictionEngine.ts:240-258 | a conditional push adds the recommendation exactly when its rule fires and keeps the rule order |
| Narrative.FiredRecommendations | src/lib/predictionEngine.ts:237-258 | at most five rule entries, each present exactly when its condition holds, never the fallback, in the code's order |
| Narrative.GenerateRecommendations | src/lib/predictionEngine.ts:237-265 | one to five entries; each of the five rules' entries is present exactly when its condition holds; the fallback appears exactly when none fires and is then the only entry; entries follow the code's order |
| PredictionEngine.ClampedProbability | src/lib/predictionEngine.ts:14-49 | the probability used for risk, revenue and narrative lies in [5, 98] |
| PredictionEngine.PredictMovieSuccess | src/lib/predictionEngine.ts:12-75 | reported probability in [5, 98], one decimal, within 0.05 of the clamped value; risk from the unrounded value; for budget ≥ 0, ordered non-negative revenue and non-negative revenue at risk; eight sorted contributions, each feature once; one to five explanations and recommendations; a strong tier is never High risk and, for budget ≥ 0, an elevated-risk tier is never Low |
| PredictionEngine.ScoreOnPercentScale | src/lib/predictionEngine.ts:29-49 | for in-range inputs, the unclamped score is between 0 and 100 percent |
| PredictionEngine.MorePopularActorNeverHurts | src/lib/predictionEngine.ts:31 | raising only the lead actor's popularity never lowers the probability |
| PredictionEngine.BetterTrailerNeverHurts | src/lib/predictionEngine.ts:35 | raising only the trailer sentiment never lowers the probability |
| PredictionEngine.ReportedValueCanCrossRiskThreshold | src/lib/predictionEngine.ts:52-67 | a probability of 72.46 is reported as 72.5 yet is Medium at budget 200, while 72.5 itself is Low: the risk level is not a function of the reported number |
| PredictionEngine.HorizonsEdgeFeatures | src/lib/movieData.ts:100-113 | the first sample's engineered features, from its genre, language, month and budget |
| PredictionEngine.HorizonsEdgeExample | src/lib/movieData.ts:100-113 | the first sample scores 73.56, reported 73.6, Low risk, revenue 191/318/445, 38 at risk |
| PredictionEngine.HorizonsEdgeExplanation | src/lib/movieData.ts:100-113 | the first sample's explanation at 73.56 is strong tier, star power at 85, peak season in month 7 and trailer at 72% |
| PredictionEngine.HorizonsEdgeRecommendations | src/lib/movieData.ts:100-113 | the first sample fires no recommendation rule, so its only recommendation is the well-aligned fallback |
| PredictionEngine.HorizonsEdgeNarrative | src/lib/movieData.ts:100-113 | the first sample's explanation is strong tier, star power at 85, peak season in month 7 and trailer at 72%, and its only recommendation is the well-aligned fallback |
| PredictionEngine.WhispersInTheDarkFeatures | src/lib/movieData.ts:128-141 | the third sample's engineered features |
| PredictionEngine.SciFiIndex | src/lib/movieData.ts:39-56 | the Sci-Fi success index is 0.70 |
| PredictionEngine.HorrorIndex | src/lib/movieData.ts:39-56 | the Horror success index is 0.62 |
| PredictionEngine.EnglishReach | src/lib/movieData.ts:59-70 | the English market multiplier is 1.0 |
| PredictionEngine.JulyAdvantage | src/lib/movieData.ts:73-86 | July's release-timing advantage is 0.90 |
| PredictionEngine.OctoberAdvantage | src/lib/movieData.ts:73-86 | October's release-timing advantage is 0.60 |
| PredictionEngine.WhispersInTheDarkExample | src/lib/movieData.ts:128-141 | the third sample scores 57.275, reported 57.3, Medium risk, revenue 21/34/48, 9 at risk |

## Left out

- The React dashboard, forms and charts: presentation only, outside the scoring core.
- IEEE-754 double arithmetic. The model computes with exact reals, so results that
  depend on binary rounding are not modelled, for example a product landing just below
  a `.5` tie before `Math.round`. NaN and infinities are not modelled either.
- JavaScript prototype keys. A genre or language such as `"toString"` or `"constructor"`
  finds an inherited property instead of missing the table. The model treats every
  unlisted key as missing.
- Object-literal key semantics beyond the engine's tables. A repeated key in a JavaScript
  literal keeps its last value, and integer keys enumerate in ascending order, while
  `LookupTable.Lookup` returns the first match and `LookupTable.Keys` keeps written order.
  The three tables have distinct keys, and the month keys are written in ascending order
  (`MovieData.ReleaseMonthKeys`), so the two readings agree on them.
- Non-integer release months: `releaseMonth` is an integer in the model. A fractional
  month would miss the table and fall back to 0.5, which is the same as any other
  unlisted month.
- `title` is carried in the record but no computation reads it.
- Sentence wording: explanations, recommendations and contribution descriptions are tags
  carrying the interpolated values (genre, popularity, month, percentage, budget). The
  model does not reproduce the characters of the sentences or how JavaScript prints a number.
- The sort comparator's arithmetic (`abs(b) − abs(a)`) and the engine's choice of sorting
  algorithm. The model uses insertion sort, and `FeatureImportance.StableSortIsUnique`
  shows that every stable sort with that comparator gives the same result.
- The second sample movie ("The Last Kingdom") is part of the data but has no worked
  example lemma.
- FeatureImportance.Contribution: the "favourable description implies positive flag"
  clause excludes Budget Risk at a budget of exactly 100, because the code flags that case
  negative (see `FeatureImportance.ManageableBudgetFlaggedNegativeAtHundred`).
- FeatureImportance.CalculateFeatureImportance: the same budget-100 exception applies
  to its favourable-implies-positive clause.
- Financial.EstimateRevenue: the ordering clauses are stated for a non-negative
  probability, which the engine always supplies (the probability is clamped to [5, 98]).

=== FILE: feature_importance.dfy ===
/** Feature contributions: eight signed impacts, ranked by magnitude with a stable sort. */
module FeatureImportance {
  import opened LookupTable
  import opened MovieData
  import opened Features

  /** The eight features shown in the ranking. */
  datatype Feature =
    | LeadActor | Genre | Trailer | ReleaseTiming | SocialBuzz | Director | Budget | Franchise
  {
    /** The name the ranking displays. */
    function Label(): string {
      match this
      case LeadActor => "Lead Actor Popularity"
      case Genre => "Genre Success Index"
      case Trailer => "Trailer Sentiment"
      case ReleaseTiming => "Release Timing"
      case SocialBuzz => "Social Media Buzz"
      case Director => "Director Track Record"
      case Budget => "Budget Risk"
      case Franchise => "Franchise Factor"
    }
  }

  /** No two features share a display name. */
  lemma LabelsDistinct()
    ensures forall a: Feature, b: Feature :: a.Label() == b.Label() ==> a == b
  {
    forall a: Feature, b: Feature | a.Label() == b.Label()
      ensures a == b
    {
      assert a.Label()[0] == b.Label()[0];
    }
  }

  /** The one-line descriptions; the genre line names the genre and says strong or moderate. */
  datatype Description =
    | StarPowerDrivesInterest | CastMoreRecognizableTalent
    | GenreHistory(genre: string, strong: bool)
    | TrailerPositiveBuzz | TrailerNeedsImprovement
    | PrimeReleaseWindow | AdjustReleaseDate
    | StrongSocialEngagement | MarketingPushRecommended
    | ProvenDirector | DirectorReliabilityConcern
    | HighBudgetPressure | ManageableBudget
    | BuiltInAudience | OriginalIPUncertainty
  {
    /** The descriptions that speak in the feature's favour. */
    predicate Favourable() {
      || StarPowerDrivesInterest? || (GenreHistory? && strong) || TrailerPositiveBuzz?
      || PrimeReleaseWindow? || StrongSocialEngagement? || ProvenDirector?
      || ManageableBudget? || BuiltInAudience?
    }
  }

  datatype FeatureContribution = FeatureContribution(
    feature: Feature, impact: real, description: Description, isPositive: bool)

  /** The order in which the contributions are listed before sorting. */
  const DeclaredOrder: seq<Feature> :=
    [LeadActor, Genre, Trailer, ReleaseTiming, SocialBuzz, Director, Budget, Franchise]

  /** How the positivity flag relates to the sign of the impact, feature by feature. The flag follows
      the sign for most features; Release Timing flags only from an advantage of 0.6 up, that is from an
      impact of 0.15, so a small positive impact carries a negative flag; Budget Risk flags exactly the contributions whose impact is not positive. */
  predicate FlagSignRule(c: FeatureContribution) {
    match c.feature
    case LeadActor => c.isPositive <==> c.impact >= 0.0
    case Genre => c.isPositive <==> c.impact >= 0.0
    case SocialBuzz => c.isPositive <==> c.impact >= 0.0
    case Director => c.isPositive <==> c.impact >= 0.0
    case Trailer => c.isPositive <==> c.impact > 0.0
    case Franchise => c.isPositive <==> c.impact > 0.0
    case ReleaseTiming => c.isPositive <==> c.impact >= 0.15
    case Budget => c.isPositive <==> c.impact <= 0.0
  }

  /** A description in the feature's favour sits only on a contribution flagged positive. */
  predicate FavourableIsPositive(c: FeatureContribution) {
    c.description.Favourable() ==> c.isPositive
  }

  /** The contribution of one feature: its signed impact, its description and its positivity flag. */
  function Contribution(ft: Feature, m: MovieInput, f: EngineeredFeatures): (c: FeatureContribution)
    ensures c.feature == ft
    ensures FlagSignRule(c)
    ensures ScaledFrom(m, f) && !(ft == Budget && m.budget == 100.0) ==> FavourableIsPositive(c)
    ensures ScaledFrom(m, f) && Normalized(f) ==> -1.0 <= c.impact <= 1.0
  {
    match ft
    case LeadActor =>
      FeatureContribution(
        LeadActor, (f.actorImpactScore - 0.5) * 2.0,
        if m.leadActorPopularity >= 70.0 then StarPowerDrivesInterest else CastMoreRecognizableTalent,
        f.actorImpactScore >= 0.5)
    case Genre =>
      FeatureContribution(
        Genre, (f.genreSuccessIndex - 0.5) * 1.5,
        GenreHistory(m.genre, f.genreSuccessIndex > 0.6),
        f.genreSuccessIndex >= 0.5)
    case Trailer =>
      FeatureContribution(
        Trailer, m.trailerSentiment,
        if m.trailerSentiment > 0.5 then TrailerPositiveBuzz else TrailerNeedsImprovement,
        m.trailerSentiment > 0.0)
    case ReleaseTiming =>
      FeatureContribution(
        ReleaseTiming, (f.releaseTimingAdvantage - 0.5) * 1.5,
        if f.releaseTimingAdvantage >= 0.8 then PrimeReleaseWindow else AdjustReleaseDate,
        f.releaseTimingAdvantage >= 0.6)
    case SocialBuzz =>
      FeatureContribution(
        SocialBuzz, (f.socialBuzzNormalized - 0.5) * 1.5,
        if m.socialBuzz >= 70.0 then StrongSocialEngagement else MarketingPushRecommended,
        f.socialBuzzNormalized >= 0.5)
    case Director =>
      FeatureContribution(
        Director, (f.directorConsistencyScore - 0.5) * 1.2,
        if m.directorScore >= 70.0 then ProvenDirector else DirectorReliabilityConcern,
        f.directorConsistencyScore >= 0.5)
    case Budget =>
      FeatureContribution(
        Budget, (f.budgetRiskRatio - 0.5) * -1.0,
        if m.budget > 100.0 then HighBudgetPressure else ManageableBudget,
        f.budgetRiskRatio >= 0.5)
    case Franchise =>
      FeatureContribution(
        Franchise, if m.sequelOrFranchise then 0.4 else -0.1,
        if m.sequelOrFranchise then BuiltInAudience else OriginalIPUncertainty,
        m.sequelOrFranchise)
  }

  /** The one exception to FavourableIsPositive: at a budget of exactly 100 the description still says
      the budget is manageable, while the budget step has already dropped to 0.45 and the flag is off. */
  lemma ManageableBudgetFlaggedNegativeAtHundred(m: MovieInput)
    requires m.budget == 100.0
    ensures var c := Contribution(Budget, m, EngineerFeatures(m));
      c.description == ManageableBudget && !c.isPositive && c.impact > 0.0
  {
  }

  /** Budget Risk's impact has the opposite sign to its flag and to the budget ratio's pull on the score:
      a small budget raises the probability and is flagged positive, yet its impact is negative. */
  lemma BudgetImpactOpposesFlag(m: MovieInput)
    requires m.budget < 100.0
    ensures var c := Contribution(Budget, m, EngineerFeatures(m));
      c.isPositive && c.impact < 0.0
  {
  }

  /** A month worth a little more than neutral but below 0.6 (February, April, September) has a positive
      Release Timing impact, yet the contribution is flagged negative. */
  lemma SmallTimingGainFlaggedNegative(m: MovieInput, f: EngineeredFeatures)
    requires 0.5 < f.releaseTimingAdvantage < 0.6
    ensures var c := Contribution(ReleaseTiming, m, f);
      0.0 < c.impact < 0.15 && !c.isPositive
  {
  }

  /** April is one such month: advantage 0.55, impact 0.075, flagged negative. */
  lemma AprilTimingFlaggedNegative(m: MovieInput)
    requires m.releaseMonth == 4
    ensures var c := Contribution(ReleaseTiming, m, EngineerFeatures(m));
      c.impact == 0.075 && !c.isPositive
  {
    assert EngineerFeatures(m).releaseTimingAdvantage == 0.55 by {
      AprilAdvantage();
    }
  }

  lemma AprilAdvantage()
    ensures LookupOrNeutral(ReleaseTimingAdvantage, 4) == 0.55
  {
    ReleaseTimingValues();
    LookupAt(ReleaseTimingAdvantage, 3);
  }

  /** The eight contributions, unsorted, in declaration order. */
  function Contributions(m: MovieInput, f: EngineeredFeatures): (cs: seq<FeatureContribution>)
    ensures |cs| == |DeclaredOrder|
    ensures forall i :: 0 <= i < |cs| ==> cs[i].feature == DeclaredOrder[i]
    ensures forall ft :: CountFeature(cs, ft) == 1
    ensures forall c :: c in cs ==> FlagSignRule(c)
  {
    var cs := seq(|DeclaredOrder|, i requires 0 <= i < |DeclaredOrder| => Contribution(DeclaredOrder[i], m, f));
    assert forall ft :: CountFeature(cs, ft) == 1 by {
      forall ft
        ensures CountFeature(cs, ft) == 1
      {
        CountDeclared(cs, ft);
      }
    }
    cs
  }

  /** `Math.abs(impact)`, the sort key. */
  function Magnitude(c: FeatureContribution): real {
    if c.impact < 0.0 then -c.impact else c.impact
  }

  /** Non-increasing magnitude from front to back. */
  predicate SortedByMagnitude(s: seq<FeatureContribution>) {
    forall i, j :: 0 <= i < j < |s| ==> Magnitude(s[i]) >= Magnitude(s[j])
  }

  /** The contributions of magnitude `k`, in the order they occur. */
  function WithMagnitude(s: seq<FeatureContribution>, k: real): seq<FeatureContribution> {
    if s == [] then []
    else if Magnitude(s[0]) == k then [s[0]] + WithMagnitude(s[1..], k)
    else WithMagnitude(s[1..], k)
  }

  /** How many contributions belong to `ft`. */
  function CountFeature(s: seq<FeatureContribution>, ft: Feature): nat {
    if s == [] then 0
    else (if s[0].feature == ft then 1 else 0) + CountFeature(s[1..], ft)
  }

  /** Places `x`, which came before every element of `s`, ahead of the first element that is not larger. */
  function Insert(x: FeatureContribution, s: seq<FeatureContribution>): (r: seq<FeatureContribution>)
    requires SortedByMagnitude(s)
    ensures |r| == |s| + 1
    ensures forall y :: y in r <==> y == x || y in s
    ensures SortedByMagnitude(r)
  {
    if s == [] || Magnitude(s[0]) <= Magnitude(x) then
      [x] + s
    else
      var r' := Insert(x, s[1..]);
      assert forall y :: y in s <==> y == s[0] || y in s[1..] by {
        assert s == [s[0]] + s[1..];
      }
      assert SortedByMagnitude([s[0]] + r') by {
        forall j | 0 <= j < |r'|
          ensures Magnitude(r'[j]) <= Magnitude(s[0])
        {
          assert r'[j] == x || r'[j] in s[1..];
        }
        PrependKeepsSorted(s[0], r');
      }
      [s[0]] + r'
  }

  /** Insertion adds exactly one copy of `x` and keeps everything else. */
  lemma {:induction false} InsertPermutes(x: FeatureContribution, s: seq<FeatureContribution>)
    requires SortedByMagnitude(s)
    ensures multiset(Insert(x, s)) == multiset(s) + multiset{x}
  {
    if s == [] || Magnitude(s[0]) <= Magnitude(x) {
      assert Insert(x, s) == [x] + s;
    } else {
      InsertPermutes(x, s[1..]);
      assert Insert(x, s) == [s[0]] + Insert(x, s[1..]);
      assert s == [s[0]] + s[1..];
    }
  }

  /** A head no smaller than anything after it keeps a sorted sequence sorted. */
  lemma PrependKeepsSorted(a: FeatureContribution, s: seq<FeatureContribution>)
    requires SortedByMagnitude(s)
    requires forall j :: 0 <= j < |s| ==> Magnitude(s[j]) <= Magnitude(a)
    ensures SortedByMagnitude([a] + s)
  {
  }

  /** Insertion sort by non-increasing magnitude. */
  function SortByMagnitude(s: seq<FeatureContribution>): (r: seq<FeatureContribution>)
    ensures |r| == |s|
    ensures multiset(r) == multiset(s)
    ensures SortedByMagnitude(r)
  {
    if s == [] then []
    else
      assert s == [s[0]] + s[1..];
      InsertPermutes(s[0], SortByMagnitude(s[1..]));
      Insert(s[0], SortByMagnitude(s[1..]))
  }

  /** `x` lands in front of the elements of its own magnitude, so each run grows at its front. */
  lemma {:induction false} InsertRuns(x: FeatureContribution, s: seq<FeatureContribution>, k: real)
    requires SortedByMagnitude(s)
    ensures WithMagnitude(Insert(x, s), k)
         == if Magnitude(x) == k then [x] + WithMagnitude(s, k) else WithMagnitude(s, k)
  {
    if s == [] || Magnitude(s[0]) <= Magnitude(x) {
      assert Insert(x, s) == [x] + s;
      assert ([x] + s)[1..] == s;
    } else {
      var r' := Insert(x, s[1..]);
      assert Insert(x, s) == [s[0]] + r';
      assert ([s[0]] + r')[1..] == r';
      InsertRuns(x, s[1..], k);
    }
  }

  /** The sort is stable: for every magnitude, the run of that magnitude is the input's, in input order. */
  lemma {:induction false} SortKeepsRuns(s: seq<FeatureContribution>, k: real)
    ensures WithMagnitude(SortByMagnitude(s), k) == WithMagnitude(s, k)
  {
    if s != [] {
      SortKeepsRuns(s[1..], k);
      InsertRuns(s[0], SortByMagnitude(s[1..]), k);
    }
  }

  lemma {:induction false} InsertCounts(x: FeatureContribution, s: seq<FeatureContribution>, ft: Feature)
    requires SortedByMagnitude(s)
    ensures CountFeature(Insert(x, s), ft) == CountFeature(s, ft) + (if x.feature == ft then 1 else 0)
  {
    if s == [] || Magnitude(s[0]) <= Magnitude(x) {
      assert ([x] + s)[1..] == s;
    } else {
      var r' := Insert(x, s[1..]);
      assert ([s[0]] + r')[1..] == r';
      InsertCounts(x, s[1..], ft);
    }
  }

  /** The sort keeps how often each feature occurs. */
  lemma {:induction false} SortKeepsCounts(s: seq<FeatureContribution>, ft: Feature)
    ensures CountFeature(SortByMagnitude(s), ft) == CountFeature(s, ft)
  {
    if s != [] {
      SortKeepsCounts(s[1..], ft);
      InsertCounts(s[0], SortByMagnitude(s[1..]), ft);
    }
  }

  /** Every contribution of a magnitude-`k` run is an element of magnitude `k`. */
  lemma {:induction false} WithMagnitudeMembers(s: seq<FeatureContribution>, k: real, x: FeatureContribution)
    requires x in WithMagnitude(s, k)
    ensures x in s && Magnitude(x) == k
  {
    if s != [] {
      if x != s[0] || Magnitude(s[0]) != k {
        WithMagnitudeMembers(s[1..], k, x);
      }
    }
  }

  lemma HeadRunNonEmpty(s: seq<FeatureContribution>)
    requires s != []
    ensures WithMagnitude(s, Magnitude(s[0])) != []
  {
  }

  /** Two sequences sorted by magnitude with the same run for every magnitude are equal. */
  lemma {:induction false} SortedRunsDetermine(t: seq<FeatureContribution>, r: seq<FeatureContribution>)
    requires SortedByMagnitude(t) && SortedByMagnitude(r)
    requires forall k :: WithMagnitude(t, k) == WithMagnitude(r, k)
    ensures t == r
  {
    if t == [] && r == [] {
    } else if t == [] {
      HeadRunNonEmpty(r);
      assert false;
    } else if r == [] {
      HeadRunNonEmpty(t);
      assert false;
    } else {
      var a, b := t[0], r[0];
      assert WithMagnitude(r, Magnitude(a))[0] == a;
      WithMagnitudeMembers(r, Magnitude(a), a);
      assert WithMagnitude(t, Magnitude(b))[0] == b;
      WithMagnitudeMembers(t, Magnitude(b), b);
      assert Magnitude(a) == Magnitude(b);
      assert a == b;
      forall k
        ensures WithMagnitude(t[1..], k) == WithMagnitude(r[1..], k)
      {
        assert WithMagnitude(t, k) == WithMagnitude(r, k);
        if Magnitude(a) == k {
          assert WithMagnitude(t[1..], k) == WithMagnitude(t, k)[1..];
          assert WithMagnitude(r[1..], k) == WithMagnitude(r, k)[1..];
        } else {
          assert WithMagnitude(t[1..], k) == WithMagnitude(t, k);
          assert WithMagnitude(r[1..], k) == WithMagnitude(r, k);
        }
      }
      SortedRunsDetermine(t[1..], r[1..]);
      assert t == [a] + t[1..] && r == [b] + r[1..];
    }
  }

  /** Any ordering that is sorted by magnitude and keeps input order within equal magnitudes is the
      one SortByMagnitude returns: the ranking is fully determined by the stable-sort requirement. */
  lemma StableSortIsUnique(s: seq<FeatureContribution>, t: seq<FeatureContribution>)
    requires SortedByMagnitude(t)
    requires forall k :: WithMagnitude(t, k) == WithMagnitude(s, k)
    ensures t == SortByMagnitude(s)
  {
    forall k
      ensures WithMagnitude(t, k) == WithMagnitude(SortByMagnitude(s), k)
    {
      SortKeepsRuns(s, k);
    }
    SortedRunsDetermine(t, SortByMagnitude(s));
  }

  /** The ranked contributions: the eight declared contributions, each feature once, sorted by
      non-increasing magnitude with ties in declaration order. */
  function CalculateFeatureImportance(m: MovieInput, f: EngineeredFeatures): (r: seq<FeatureContribution>)
    ensures |r| == 8
    ensures multiset(r) == multiset(Contributions(m, f))
    ensures SortedByMagnitude(r)
    ensures forall k :: WithMagnitude(r, k) == WithMagnitude(Contributions(m, f), k)
    ensures forall ft :: CountFeature(r, ft) == 1
    ensures forall c :: c in r ==> FlagSignRule(c)
    ensures f == EngineerFeatures(m) ==>
      forall c :: c in r && !(c.feature == Budget && m.budget == 100.0) ==> FavourableIsPositive(c)
    ensures f == EngineerFeatures(m) && InDocumentedRange(m) ==> forall c :: c in r ==> -1.0 <= c.impact <= 1.0
  {
    var cs := Contributions(m, f);
    var r := SortByMagnitude(cs);
    assert forall k :: WithMagnitude(r, k) == WithMagnitude(cs, k) by {
      forall k
        ensures WithMagnitude(r, k) == WithMagnitude(cs, k)
      {
        SortKeepsRuns(cs, k);
      }
    }
    assert forall ft :: CountFeature(r, ft) == 1 by {
      forall ft
        ensures CountFeature(r, ft) == 1
      {
        SortKeepsCounts(cs, ft);
      }
    }
    assert forall c :: c in r ==> c in cs by {
      forall c | c in r
        ensures c in cs
      {
        assert c in multiset(r);
      }
    }
    r
  }

  /** In a list whose features are pairwise distinct, a feature that occurs at all occurs once. */
  lemma {:induction false} CountDistinct(cs: seq<FeatureContribution>, i: nat, ft: Feature)
    requires i < |cs| && cs[i].feature == ft
    requires forall p, q :: 0 <= p < q < |cs| ==> cs[p].feature != cs[q].feature
    ensures CountFeature(cs, ft) == 1
  {
    if i == 0 {
      CountAbsent(cs[1..], ft);
    } else {
      CountDistinct(cs[1..], i - 1, ft);
    }
  }

  /** A feature at no position is not counted. */
  lemma {:induction false} CountAbsent(cs: seq<FeatureContribution>, ft: Feature)
    requires forall p :: 0 <= p < |cs| ==> cs[p].feature != ft
    ensures CountFeature(cs, ft) == 0
  {
    if cs != [] {
      CountAbsent(cs[1..], ft);
    }
  }

  /** The declared list holds each feature exactly once. */
  lemma CountDeclared(cs: seq<FeatureContribution>, ft: Feature)
    requires |cs| == |DeclaredOrder|
    requires forall i :: 0 <= i < |cs| ==> cs[i].feature == DeclaredOrder[i]
    ensures CountFeature(cs, ft) == 1
  {
    var i :=
      match ft
      case LeadActor => 0
      case Genre => 1
      case Trailer => 2
      case ReleaseTiming => 3
      case SocialBuzz => 4
      case Director => 5
      case Budget => 6
      case Franchise => 7;
    assert DeclaredOrder[i] == ft;
    CountDistinct(cs, i, ft);
  }
}

=== FILE: features.dfy ===
/** Feature engineering: the ten signals every later stage reads. */
module Features {
  import opened LookupTable
  import opened MovieData

  /** The engineered signals of one movie, computed once per prediction. */
  datatype EngineeredFeatures = EngineeredFeatures(
    genreSuccessIndex: real,
    languageMultiplier: real,
    actorImpactScore: real,
    directorConsistencyScore: real,
    budgetRiskRatio: real,
    releaseTimingAdvantage: real,
    trailerSentimentNormalized: real,
    socialBuzzNormalized: real,
    franchiseBonus: real,
    awardCrewBonus: real)

  predicate InUnit(x: real) {
    0.0 <= x <= 1.0
  }

  /** Every signal lies in [0, 1] and the two flags are exactly 0 or 1. */
  predicate Normalized(f: EngineeredFeatures) {
    && InUnit(f.genreSuccessIndex)
    && InUnit(f.languageMultiplier)
    && InUnit(f.actorImpactScore)
    && InUnit(f.directorConsistencyScore)
    && InUnit(f.budgetRiskRatio)
    && InUnit(f.releaseTimingAdvantage)
    && InUnit(f.trailerSentimentNormalized)
    && InUnit(f.socialBuzzNormalized)
    && (f.franchiseBonus == 0.0 || f.franchiseBonus == 1.0)
    && (f.awardCrewBonus == 0.0 || f.awardCrewBonus == 1.0)
  }

  /** `f` carries the scaled scores and the budget ratio of `m`. */
  predicate ScaledFrom(m: MovieInput, f: EngineeredFeatures) {
    && f.actorImpactScore == m.leadActorPopularity / 100.0
    && f.directorConsistencyScore == m.directorScore / 100.0
    && f.socialBuzzNormalized == m.socialBuzz / 100.0
    && f.trailerSentimentNormalized == (m.trailerSentiment + 1.0) / 2.0
    && f.budgetRiskRatio == BudgetRiskRatio(m.budget)
  }

  function BoolToUnit(b: bool): real {
    if b then 1.0 else 0.0
  }

  /** Maps the raw input to its signals: table lookups with a 0.5 fallback, 0..100 scores over 100,
      sentiment moved from -1..1 to 0..1, flags to 0/1. */
  function EngineerFeatures(m: MovieInput): (f: EngineeredFeatures)
    // The scaled signals can be mapped back to the raw inputs.
    ensures f.actorImpactScore * 100.0 == m.leadActorPopularity
    ensures f.directorConsistencyScore * 100.0 == m.directorScore
    ensures f.socialBuzzNormalized * 100.0 == m.socialBuzz
    ensures f.trailerSentimentNormalized * 2.0 - 1.0 == m.trailerSentiment
    ensures f.franchiseBonus == 1.0 <==> m.sequelOrFranchise
    ensures f.awardCrewBonus == 1.0 <==> m.hasAwardWinningCrew
    // Unknown categories fall back to the neutral 0.5.
    ensures m.genre !in Genres ==> f.genreSuccessIndex == Neutral
    ensures m.language !in Languages ==> f.languageMultiplier == Neutral
    ensures !(1 <= m.releaseMonth <= 12) ==> f.releaseTimingAdvantage == Neutral
    // Looked-up and stepped signals stay inside their tables' ranges, whatever the input.
    ensures 0.35 <= f.genreSuccessIndex <= 0.75
    ensures 0.40 <= f.languageMultiplier <= 1.0
    ensures 0.50 <= f.releaseTimingAdvantage <= 0.95
    ensures 0.25 <= f.budgetRiskRatio <= 0.75
    ensures InDocumentedRange(m) ==> Normalized(f)
    ensures ScaledFrom(m, f)
  {
    GenreTableFacts();
    LanguageTableFacts();
    ReleaseMonthKeys();
    ReleaseTimingValues();
    LookupWithin(GenreSuccessIndex, m.genre, 0.35, 0.75);
    LookupWithin(LanguageMultiplier, m.language, 0.40, 1.0);
    LookupWithin(ReleaseTimingAdvantage, m.releaseMonth, 0.50, 0.95);
    EngineeredFeatures(
      LookupOrNeutral(GenreSuccessIndex, m.genre),
      LookupOrNeutral(LanguageMultiplier, m.language),
      m.leadActorPopularity / 100.0,
      m.directorScore / 100.0,
      BudgetRiskRatio(m.budget),
      LookupOrNeutral(ReleaseTimingAdvantage, m.releaseMonth),
      (m.trailerSentiment + 1.0) / 2.0,
      m.socialBuzz / 100.0,
      BoolToUnit(m.sequelOrFranchise),
      BoolToUnit(m.hasAwardWinningCrew))
  }

  /** A listed genre, language or month yields its table value: the fallback never fires on a known key. */
  lemma KnownCategoriesUseTables(m: MovieInput)
    ensures m.genre in Genres ==>
      Lookup(GenreSuccessIndex, m.genre) == Some(EngineerFeatures(m).genreSuccessIndex)
    ensures m.language in Languages ==>
      Lookup(LanguageMultiplier, m.language) == Some(EngineerFeatures(m).languageMultiplier)
    ensures 1 <= m.releaseMonth <= 12 ==>
      Lookup(ReleaseTimingAdvantage, m.releaseMonth) == Some(EngineerFeatures(m).releaseTimingAdvantage)
  {
    GenreTableFacts();
    LanguageTableFacts();
    ReleaseMonthKeys();
    ReleaseTimingValues();
    if m.genre in Genres {
      KnownKeyIsStoredValue(GenreSuccessIndex, m.genre);
    }
    if m.language in Languages {
      KnownKeyIsStoredValue(LanguageMultiplier, m.language);
    }
    if 1 <= m.releaseMonth <= 12 {
      KnownKeyIsStoredValue(ReleaseTimingAdvantage, m.releaseMonth);
    }
  }
}

=== FILE: financial.dfy ===
/** Financial estimates derived from the (clamped, unrounded) probability and the budget. */
module Financial {
  import opened Rounding

  datatype RiskLevel = Low | Medium | High

  /** How bad a tier is: Low 0, Medium 1, High 2. */
  function Severity(r: RiskLevel): nat {
    match r
    case Low => 0
    case Medium => 1
    case High => 2
  }

  /** `min(budget / 100, 1.5)`: the budget's pull on the thresholds, capped at a budget of 150. */
  function BudgetFactor(budget: real): real {
    if budget / 100.0 < 1.5 then budget / 100.0 else 1.5
  }

  /** The probability needed for the Low tier. */
  function LowRiskThreshold(budget: real): real {
    65.0 + BudgetFactor(budget) * 5.0
  }

  /** The probability needed for the Medium tier. */
  function MediumRiskThreshold(budget: real): real {
    45.0 + BudgetFactor(budget) * 5.0
  }

  /** The risk tier: Low at or above the Low threshold, Medium at or above the Medium one, else High. */
  function GetRiskLevel(probability: real, budget: real): (r: RiskLevel)
    // Whatever the budget, 72.5 always suffices for Low.
    ensures probability >= 72.5 ==> r == Low
    // With a non-negative budget, below 45 is always High and 52.5 or more is never High.
    ensures budget >= 0.0 && probability < 45.0 ==> r == High
    ensures budget >= 0.0 && probability >= 52.5 ==> r != High
    // The tier only depends on which side of each threshold the probability falls.
    ensures r == Low <==> probability >= LowRiskThreshold(budget)
    ensures r == High <==> probability < MediumRiskThreshold(budget)
  {
    if probability >= LowRiskThreshold(budget) then Low
    else if probability >= MediumRiskThreshold(budget) then Medium
    else High
  }

  /** The Low threshold always sits 20 points above the Medium one. */
  lemma ThresholdGap(budget: real)
    ensures LowRiskThreshold(budget) == MediumRiskThreshold(budget) + 20.0
  {
  }

  /** For a fixed budget, a higher probability never gives a worse tier. */
  lemma RiskLevelMonotoneInProbability(p1: real, p2: real, budget: real)
    requires p1 <= p2
    ensures Severity(GetRiskLevel(p2, budget)) <= Severity(GetRiskLevel(p1, budget))
  {
    ThresholdGap(budget);
  }

  /** For a fixed probability, a higher budget never gives a better tier. */
  lemma RiskLevelMonotoneInBudget(probability: real, b1: real, b2: real)
    requires b1 <= b2
    ensures Severity(GetRiskLevel(probability, b1)) <= Severity(GetRiskLevel(probability, b2))
  {
    assert BudgetFactor(b1) <= BudgetFactor(b2);
  }

  /** The thresholds stop moving at a budget of 150: beyond it the tier depends on the probability only. */
  lemma RiskLevelSaturates(probability: real, b1: real, b2: real)
    requires 150.0 <= b1 && 150.0 <= b2
    ensures GetRiskLevel(probability, b1) == GetRiskLevel(probability, b2)
    ensures LowRiskThreshold(b1) == 72.5 && MediumRiskThreshold(b1) == 52.5
  {
  }

  /** Revenue figures in millions, each rounded to an integer. */
  datatype RevenueEstimate = RevenueEstimate(min: int, max: int, expected: int)

  /** The expected revenue before rounding: a 50% probability returns 1.2 times the budget. */
  function ExpectedRevenue(probability: real, budget: real): real {
    budget * (probability / 50.0) * 1.2
  }

  /** The ±40% band around the expected revenue, each figure rounded. */
  function EstimateRevenue(probability: real, budget: real): (r: RevenueEstimate)
    ensures budget >= 0.0 && probability >= 0.0 ==> 0 <= r.min <= r.expected <= r.max
    ensures budget <= 0.0 && probability >= 0.0 ==> r.max <= r.expected <= r.min <= 0
    ensures probability == 0.0 || budget == 0.0 ==> r == RevenueEstimate(0, 0, 0)
    // Each figure is the nearest integer to its point of the band: the expected revenue
    // budget * (probability / 50) * 1.2, and 60% and 140% of it.
    ensures var e := budget * (probability / 50.0) * 1.2;
      && e - 0.5 < r.expected as real <= e + 0.5
      && e * 0.6 - 0.5 < r.min as real <= e * 0.6 + 0.5
      && e * 1.4 - 0.5 < r.max as real <= e * 1.4 + 0.5
  {
    RevenueBand(probability, budget);
    var expected := ExpectedRevenue(probability, budget);
    RevenueEstimate(Round(expected * 0.6), Round(expected * 1.4), Round(expected))
  }

  /** The band is ordered before rounding, and rounding keeps the order. */
  lemma RevenueBand(probability: real, budget: real)
    ensures var e := ExpectedRevenue(probability, budget);
      (budget >= 0.0 && probability >= 0.0 ==> 0 <= Round(e * 0.6) <= Round(e) <= Round(e * 1.4))
      && (budget <= 0.0 && probability >= 0.0 ==> Round(e * 1.4) <= Round(e) <= Round(e * 0.6) <= 0)
      && (probability == 0.0 || budget == 0.0 ==> e == 0.0)
  {
    var e := ExpectedRevenue(probability, budget);
    if budget >= 0.0 && probability >= 0.0 {
      assert budget * (probability / 50.0) >= 0.0;
      RoundMonotone(0.0, e * 0.6);
      RoundMonotone(e * 0.6, e);
      RoundMonotone(e, e * 1.4);
    }
    if budget <= 0.0 && probability >= 0.0 {
      assert budget * (probability / 50.0) <= 0.0;
      RoundMonotone(e * 1.4, e);
      RoundMonotone(e, e * 0.6);
      RoundMonotone(e * 0.6, 0.0);
    }
  }

  /** With a non-negative budget, a higher probability never lowers any of the three figures. */
  lemma EstimateRevenueMonotone(p1: real, p2: real, budget: real)
    requires budget >= 0.0 && p1 <= p2
    ensures EstimateRevenue(p1, budget).min <= EstimateRevenue(p2, budget).min
    ensures EstimateRevenue(p1, budget).expected <= EstimateRevenue(p2, budget).expected
    ensures EstimateRevenue(p1, budget).max <= EstimateRevenue(p2, budget).max
  {
    var e1, e2 := ExpectedRevenue(p1, budget), ExpectedRevenue(p2, budget);
    assert e1 <= e2 by {
      assert budget * (p1 / 50.0) <= budget * (p2 / 50.0);
    }
    RoundMonotone(e1 * 0.6, e2 * 0.6);
    RoundMonotone(e1, e2);
    RoundMonotone(e1 * 1.4, e2 * 1.4);
  }

  /** The unrounded amount lost in the failure scenario: 80% of the budget, weighted by the failure
      probability. */
  function Loss(budget: real, probability: real): real {
    budget * ((100.0 - probability) / 100.0) * 0.8
  }

  /** The rounded amount at risk. */
  function RevenueAtRisk(budget: real, probability: real): (r: int)
    ensures budget >= 0.0 && probability <= 100.0 ==> r >= 0
    ensures budget >= 0.0 && probability >= 0.0 ==> r <= Round(budget * 0.8)
    ensures probability == 100.0 ==> r == 0
    // The result is the nearest integer to 80% of the budget weighted by the failure probability.
    ensures var loss := budget * ((100.0 - probability) / 100.0) * 0.8;
      loss - 0.5 < r as real <= loss + 0.5
  {
    LossBounds(budget, probability);
    Round(Loss(budget, probability))
  }

  lemma LossBounds(budget: real, probability: real)
    ensures budget >= 0.0 && probability <= 100.0 ==> Round(Loss(budget, probability)) >= 0
    ensures budget >= 0.0 && probability >= 0.0 ==> Round(Loss(budget, probability)) <= Round(budget * 0.8)
  {
    if budget >= 0.0 && probability <= 100.0 {
      assert budget * ((100.0 - probability) / 100.0) >= 0.0;
      RoundMonotone(0.0, Loss(budget, probability));
    }
    if budget >= 0.0 && probability >= 0.0 {
      assert budget * ((100.0 - probability) / 100.0) <= budget;
      RoundMonotone(Loss(budget, probability), budget * 0.8);
    }
  }

  /** With a non-negative budget, a higher probability never raises the amount at risk. */
  lemma RevenueAtRiskAntitone(budget: real, p1: real, p2: real)
    requires budget >= 0.0 && p1 <= p2
    ensures RevenueAtRisk(budget, p2) <= RevenueAtRisk(budget, p1)
  {
    assert Loss(budget, p2) <= Loss(budget, p1) by {
      assert budget * ((100.0 - p2) / 100.0) <= budget * ((100.0 - p1) / 100.0);
    }
    RoundMonotone(Loss(budget, p2), Loss(budget, p1));
  }
}

=== FILE: lookup_table.dfy ===
/** Static reference tables: a key/value list in declaration order, looked up with a neutral fallback. */
module LookupTable {

  datatype Option<T> = None | Some(value: T)

  /** An object literal of numbers, its entries in the order they are written. The tables of the engine
      have distinct keys, and its one number-keyed table lists its keys in ascending order, so this
      order is also the order JavaScript enumerates them in. */
  type Table<K> = seq<(K, real)>

  /** The value every lookup falls back to. */
  const Neutral: real := 0.5

  /** `Object.keys` of a table with distinct keys written in ascending order when they are numbers. */
  function Keys<K>(t: Table<K>): (ks: seq<K>)
    ensures |ks| == |t|
    ensures forall i :: 0 <= i < |t| ==> ks[i] == t[i].0
  {
    seq(|t|, i requires 0 <= i < |t| => t[i].0)
  }

  /** Indexing the object: the value stored under `k`, if any. For a table with distinct keys this is
      the only value stored under `k`. */
  function Lookup<K(==)>(t: Table<K>, k: K): (v: Option<real>)
    ensures v.Some? <==> k in Keys(t)
    ensures v.Some? ==> (k, v.value) in t
  {
    if t == [] then None
    else if t[0].0 == k then Some(t[0].1)
    else Lookup(t[1..], k)
  }

  /** `table[k] || 0.5`: a missing key, and equally a stored falsy 0, yields the neutral default. */
  function LookupOrNeutral<K(==)>(t: Table<K>, k: K): (v: real)
    ensures k !in Keys(t) ==> v == Neutral
    ensures v == Neutral || (k, v) in t
  {
    match Lookup(t, k)
    case Some(x) => if x != 0.0 then x else Neutral
    case None => Neutral
  }

  /** No key is declared twice. */
  predicate DistinctKeys<K(==)>(t: Table<K>) {
    forall i, j :: 0 <= i < j < |t| ==> t[i].0 != t[j].0
  }

  /** Every stored value lies in [lo, hi]. */
  predicate ValuesWithin<K>(t: Table<K>, lo: real, hi: real) {
    forall i :: 0 <= i < |t| ==> lo <= t[i].1 <= hi
  }

  /** No stored value is the falsy 0. */
  predicate NoZeroValue<K>(t: Table<K>) {
    forall i :: 0 <= i < |t| ==> t[i].1 != 0.0
  }

  /** With no stored zero, the `||` fallback only fires on a missing key. */
  lemma KnownKeyIsStoredValue<K>(t: Table<K>, k: K)
    requires NoZeroValue(t)
    requires k in Keys(t)
    ensures LookupOrNeutral(t, k) == Lookup(t, k).value
  {
    var i :| 0 <= i < |t| && t[i] == (k, Lookup(t, k).value);
  }

  /** With distinct keys, looking up the key of the i-th entry finds that entry's value. */
  lemma {:induction false} LookupAt<K>(t: Table<K>, i: int)
    requires DistinctKeys(t) && 0 <= i < |t|
    ensures Lookup(t, t[i].0) == Some(t[i].1)
  {
    if i > 0 {
      assert t[1..][i - 1] == t[i];
      LookupAt(t[1..], i - 1);
    }
  }

  /** The fallback keeps a lookup inside any range that holds both the stored values and 0.5. */
  lemma LookupWithin<K>(t: Table<K>, k: K, lo: real, hi: real)
    requires ValuesWithin(t, lo, hi) && lo <= Neutral <= hi
    ensures lo <= LookupOrNeutral(t, k) <= hi
  {
    var v := LookupOrNeutral(t, k);
    if v != Neutral {
      var i :| 0 <= i < |t| && t[i] == (k, v);
    }
  }
}

=== FILE: movie_data.dfy ===
/** The input record, the static reference tables and the budget step function of the engine. */
module MovieData {
  import opened LookupTable

  /** The production attributes a caller supplies for one prediction. */
  datatype MovieInput = MovieInput(
    title: string,
    genre: string,
    language: string,
    budget: real,              // millions
    runtime: real,             // minutes
    releaseMonth: int,
    leadActorPopularity: real, // 0..100
    directorScore: real,       // 0..100
    trailerSentiment: real,    // -1..1
    socialBuzz: real,          // 0..100
    sequelOrFranchise: bool,
    hasAwardWinningCrew: bool)

  /** The scales documented for the scored attributes. */
  predicate InDocumentedRange(m: MovieInput) {
    && 0.0 <= m.leadActorPopularity <= 100.0
    && 0.0 <= m.directorScore <= 100.0
    && -1.0 <= m.trailerSentiment <= 1.0
    && 0.0 <= m.socialBuzz <= 100.0
  }

  /** Historical success index per genre. */
  const GenreSuccessIndex: Table<string> := [
    ("Action", 0.72), ("Adventure", 0.68), ("Animation", 0.75), ("Comedy", 0.58),
    ("Crime", 0.52), ("Documentary", 0.45), ("Drama", 0.48), ("Family", 0.70),
    ("Fantasy", 0.65), ("Horror", 0.62), ("Mystery", 0.50), ("Romance", 0.45),
    ("Sci-Fi", 0.70), ("Thriller", 0.55), ("War", 0.42), ("Western", 0.35)
  ]

  /** Market-size multiplier per language. */
  const LanguageMultiplier: Table<string> := [
    ("English", 1.0), ("Spanish", 0.65), ("French", 0.55), ("German", 0.45),
    ("Japanese", 0.60), ("Korean", 0.55), ("Hindi", 0.70), ("Mandarin", 0.75),
    ("Italian", 0.40), ("Portuguese", 0.45)
  ]

  /** Release-timing advantage per calendar month. */
  const ReleaseTimingAdvantage: Table<int> := [
    (1, 0.50), (2, 0.55), (3, 0.60), (4, 0.55), (5, 0.80), (6, 0.85),
    (7, 0.90), (8, 0.70), (9, 0.55), (10, 0.60), (11, 0.85), (12, 0.95)
  ]

  /** The three sample movies offered as form presets. */
  const SampleMovies: seq<MovieInput> := [
    MovieInput("Horizon's Edge", "Sci-Fi", "English", 180.0, 148.0, 7, 85.0, 78.0, 0.72, 82.0, false, true),
    MovieInput("The Last Kingdom", "Action", "English", 95.0, 132.0, 12, 72.0, 65.0, 0.58, 68.0, true, false),
    MovieInput("Whispers in the Dark", "Horror", "English", 25.0, 98.0, 10, 45.0, 55.0, 0.65, 72.0, false, false)
  ]

  /** The genre keys, in declaration order. */
  const Genres: seq<string> := Keys(GenreSuccessIndex)

  /** The language keys, in declaration order. */
  const Languages: seq<string> := Keys(LanguageMultiplier)

  /** Budget-risk ratio: a step function falling from 0.75 for small budgets to 0.25 for mega budgets. */
  function BudgetRiskRatio(budget: real): (r: real)
    ensures r in {0.75, 0.65, 0.55, 0.45, 0.35, 0.25}
    ensures 0.25 <= r <= 0.75
  {
    if budget < 20.0 then 0.75
    else if budget < 50.0 then 0.65
    else if budget < 100.0 then 0.55
    else if budget < 150.0 then 0.45
    else if budget < 200.0 then 0.35
    else 0.25
  }

  /** A larger budget never earns a larger ratio. */
  lemma BudgetRiskRatioAntitone(b1: real, b2: real)
    requires b1 <= b2
    ensures BudgetRiskRatio(b2) <= BudgetRiskRatio(b1)
  {
  }

  /** Each step starts exactly at its boundary; just below a boundary the previous step applies. */
  lemma BudgetRiskRatioSteps(eps: real)
    requires 0.0 < eps <= 10.0
    ensures BudgetRiskRatio(20.0) == 0.65 && BudgetRiskRatio(20.0 - eps) == 0.75
    ensures BudgetRiskRatio(50.0) == 0.55 && BudgetRiskRatio(50.0 - eps) == 0.65
    ensures BudgetRiskRatio(100.0) == 0.45 && BudgetRiskRatio(100.0 - eps) == 0.55
    ensures BudgetRiskRatio(150.0) == 0.35 && BudgetRiskRatio(150.0 - eps) == 0.45
    ensures BudgetRiskRatio(200.0) == 0.25 && BudgetRiskRatio(200.0 - eps) == 0.35
  {
  }

  /** Every genre index is non-zero and lies in [0.35, 0.75]; no genre is listed twice. */
  lemma GenreTableFacts()
    ensures ValuesWithin(GenreSuccessIndex, 0.35, 0.75)
    ensures NoZeroValue(GenreSuccessIndex)
    ensures DistinctKeys(GenreSuccessIndex)
  {
  }

  /** Every language multiplier lies in [0.40, 1.0], and English has the maximum 1.0. */
  lemma LanguageTableFacts()
    ensures ValuesWithin(LanguageMultiplier, 0.40, 1.0)
    ensures NoZeroValue(LanguageMultiplier)
    ensures DistinctKeys(LanguageMultiplier)
    ensures Lookup(LanguageMultiplier, "English") == Some(1.0)
  {
    assert DistinctKeys(LanguageMultiplier);
    LookupAt(LanguageMultiplier, 0);
  }

  /** The timing table's keys are exactly the months 1..12, in calendar order. */
  lemma ReleaseMonthKeys()
    ensures forall m :: m in Keys(ReleaseTimingAdvantage) <==> 1 <= m <= 12
    ensures |Keys(ReleaseTimingAdvantage)| == 12
    ensures forall i :: 0 <= i < 12 ==> Keys(ReleaseTimingAdvantage)[i] == i + 1
  {
    var t := ReleaseTimingAdvantage;
    forall m | 1 <= m <= 12
      ensures m in Keys(t)
    {
      assert Keys(t)[m - 1] == m;
    }
  }

  /** Every timing value is non-zero and lies in [0.50, 0.95]; no month is listed twice. */
  lemma ReleaseTimingValues()
    ensures ValuesWithin(ReleaseTimingAdvantage, 0.50, 0.95)
    ensures NoZeroValue(ReleaseTimingAdvantage)
    ensures DistinctKeys(ReleaseTimingAdvantage)
  {
  }

  /** December is the peak month: 0.95, and no month, listed or not, has a larger advantage. */
  lemma DecemberIsPeak()
    ensures Lookup(ReleaseTimingAdvantage, 12) == Some(0.95)
    ensures forall month :: LookupOrNeutral(ReleaseTimingAdvantage, month) <= LookupOrNeutral(ReleaseTimingAdvantage, 12)
  {
    assert Lookup(ReleaseTimingAdvantage, 12) == Some(0.95) by {
      ReleaseTimingValues();
      LookupAt(ReleaseTimingAdvantage, 11);
    }
    assert ValuesWithin(ReleaseTimingAdvantage, 0.50, 0.95) by {
      ReleaseTimingValues();
    }
    forall month
      ensures LookupOrNeutral(ReleaseTimingAdvantage, month) <= 0.95
    {
      LookupWithin(ReleaseTimingAdvantage, month, 0.50, 0.95);
    }
  }

  /** The exported key lists have 16 and 10 distinct entries and are exactly the tables' keys. */
  lemma KeyListsMatchTables()
    ensures |Genres| == 16 && |Languages| == 10
    ensures forall g :: g in Genres <==> Lookup(GenreSuccessIndex, g).Some?
    ensures forall l :: l in Languages <==> Lookup(LanguageMultiplier, l).Some?
    ensures forall i, j :: 0 <= i < j < |Genres| ==> Genres[i] != Genres[j]
    ensures forall i, j :: 0 <= i < j < |Languages| ==> Languages[i] != Languages[j]
  {
    GenreTableFacts();
    LanguageTableFacts();
  }
}

=== FILE: narrative.dfy ===
/** Explanations and recommendations: ordered lists of independent threshold rules, each of which
    appends one templated sentence. Sentences are tags; interpolated values are their fields. */
module Narrative {
  import opened Rounding
  import opened MovieData
  import opened Features

  datatype Explanation =
    | StrongIndicators(genre: string)
    | ModerateSignals
    | ElevatedRisk
    | StarPower(popularity: real)
    | PeakSeason(month: int)
    | TrailerAnticipation(percentPositive: int)
    | HighBudgetBreakEven(budget: real)
  {
    /** The three opening sentences, one per probability tier. */
    predicate IsTier() {
      StrongIndicators? || ModerateSignals? || ElevatedRisk?
    }

    /** The position of the sentence's rule in the rule list. */
    function Rank(): nat {
      match this
      case StrongIndicators(_) => 0
      case ModerateSignals => 0
      case ElevatedRisk => 0
      case StarPower(_) => 1
      case PeakSeason(_) => 2
      case TrailerAnticipation(_) => 3
      case HighBudgetBreakEven(_) => 4
    }
  }

  datatype Recommendation =
    | MoveReleaseWindow
    | IncreaseSocialMarketing
    | ReviewTrailerCut
    | AddRecognizableTalent
    | AdditionalMarketing
    | StrategyWellAligned
  {
    /** The position of the recommendation's rule in the rule list. */
    function Rank(): nat {
      match this
      case MoveReleaseWindow => 0
      case IncreaseSocialMarketing => 1
      case ReviewTrailerCut => 2
      case AddRecognizableTalent => 3
      case AdditionalMarketing => 4
      case StrategyWellAligned => 5
    }
  }

  /** The list `[x]` when the rule fires, empty otherwise. */
  function When<T>(fires: bool, x: T): seq<T> {
    if fires then [x] else []
  }

  /** The opening sentence for a probability: strong from 70, moderate from 50, elevated risk below. */
  function Tier(genre: string, probability: real): (t: Explanation)
    ensures t.IsTier()
    ensures t == StrongIndicators(genre) <==> probability >= 70.0
    ensures t == ModerateSignals <==> 50.0 <= probability < 70.0
    ensures t == ElevatedRisk <==> probability < 50.0
  {
    if probability >= 70.0 then StrongIndicators(genre)
    else if probability >= 50.0 then ModerateSignals
    else ElevatedRisk
  }

  /** The explanation: the tier sentence, then one sentence per rule that fires, in rule order. */
  function GenerateExplanation(m: MovieInput, f: EngineeredFeatures, probability: real): (r: seq<Explanation>)
    ensures 1 <= |r| <= 5
    ensures r[0] == Tier(m.genre, probability)
    // The sentences follow the rule order.
    ensures ExplanationsOrdered(r)
  {
    AppendExplanation(ExplanationPrefix(m, f, probability),
                      m.budget > 150.0 && probability < 60.0, HighBudgetBreakEven(m.budget))
  }

  /** Exactly one tier sentence, and it comes first: strong from 70, moderate from 50, elevated risk below. */
  lemma OnlyOpeningIsTier(m: MovieInput, f: EngineeredFeatures, probability: real)
    ensures var r := GenerateExplanation(m, f, probability);
      && r[0].IsTier()
      && (r[0] == StrongIndicators(m.genre) <==> probability >= 70.0)
      && (r[0] == ModerateSignals <==> 50.0 <= probability < 70.0)
      && (r[0] == ElevatedRisk <==> probability < 50.0)
      && forall i :: 1 <= i < |r| ==> !r[i].IsTier()
  {
    var r := GenerateExplanation(m, f, probability);
    forall i | 1 <= i < |r| ensures !r[i].IsTier() {
      assert r[0].Rank() < r[i].Rank();
    }
  }

  /** The tier sentence followed by the first three rules. */
  function ExplanationPrefix(m: MovieInput, f: EngineeredFeatures, probability: real): (r: seq<Explanation>)
    ensures 1 <= |r| <= 4 && r[0] == Tier(m.genre, probability)
    ensures ExplanationsOrdered(r)
    ensures forall y :: y in r ==> y.Rank() <= 3
    ensures forall y :: y in r <==>
      || y == Tier(m.genre, probability)
      || (f.actorImpactScore >= 0.7 && y == StarPower(m.leadActorPopularity))
      || (f.releaseTimingAdvantage >= 0.8 && y == PeakSeason(m.releaseMonth))
      || (m.trailerSentiment > 0.6 && y == TrailerAnticipation(Round(m.trailerSentiment * 100.0)))
  {
    var r1 := AppendExplanation([Tier(m.genre, probability)], f.actorImpactScore >= 0.7, StarPower(m.leadActorPopularity));
    var r2 := AppendExplanation(r1, f.releaseTimingAdvantage >= 0.8, PeakSeason(m.releaseMonth));
    AppendExplanation(r2, m.trailerSentiment > 0.6, TrailerAnticipation(Round(m.trailerSentiment * 100.0)))
  }

  /** The star-power sentence is present exactly when the actor signal is at least 0.7. */
  lemma StarPowerRule(m: MovieInput, f: EngineeredFeatures, probability: real)
    ensures StarPower(m.leadActorPopularity) in GenerateExplanation(m, f, probability)
      <==> f.actorImpactScore >= 0.7
  {
  }

  /** The peak-season sentence is present exactly when the timing signal is at least 0.8. */
  lemma PeakSeasonRule(m: MovieInput, f: EngineeredFeatures, probability: real)
    ensures PeakSeason(m.releaseMonth) in GenerateExplanation(m, f, probability)
      <==> f.releaseTimingAdvantage >= 0.8
  {
  }

  /** The trailer sentence, with the rounded percentage, is present exactly when sentiment exceeds 0.6. */
  lemma TrailerAnticipationRule(m: MovieInput, f: EngineeredFeatures, probability: real)
    ensures TrailerAnticipation(Round(m.trailerSentiment * 100.0)) in GenerateExplanation(m, f, probability)
      <==> m.trailerSentiment > 0.6
  {
  }

  /** The break-even warning is present exactly when the budget exceeds 150 and the probability is below 60. */
  lemma HighBudgetRule(m: MovieInput, f: EngineeredFeatures, probability: real)
    ensures HighBudgetBreakEven(m.budget) in GenerateExplanation(m, f, probability)
      <==> m.budget > 150.0 && probability < 60.0
  {
  }

  /** When the strong tier and the three per-signal rules all fire and the break-even warning does not,
      the explanation is those four sentences in rule order. */
  lemma EveryExplanationRuleFires(m: MovieInput, f: EngineeredFeatures, probability: real)
    requires probability >= 70.0 && f.actorImpactScore >= 0.7
    requires f.releaseTimingAdvantage >= 0.8 && m.trailerSentiment > 0.6
    ensures GenerateExplanation(m, f, probability)
         == [StrongIndicators(m.genre), StarPower(m.leadActorPopularity), PeakSeason(m.releaseMonth),
             TrailerAnticipation(Round(m.trailerSentiment * 100.0))]
  {
    var prefix := ExplanationPrefix(m, f, probability);
    PrefixWhenAllFire(m, f, probability);
    assert AppendExplanation(prefix, false, HighBudgetBreakEven(m.budget)) == prefix;
  }

  /** The first four rules all firing give the four sentences in rule order. */
  lemma PrefixWhenAllFire(m: MovieInput, f: EngineeredFeatures, probability: real)
    requires probability >= 70.0 && f.actorImpactScore >= 0.7
    requires f.releaseTimingAdvantage >= 0.8 && m.trailerSentiment > 0.6
    ensures ExplanationPrefix(m, f, probability)
         == [StrongIndicators(m.genre), StarPower(m.leadActorPopularity), PeakSeason(m.releaseMonth),
             TrailerAnticipation(Round(m.trailerSentiment * 100.0))]
  {
    var tier, star, peak := StrongIndicators(m.genre), StarPower(m.leadActorPopularity), PeakSeason(m.releaseMonth);
    var trailer := TrailerAnticipation(Round(m.trailerSentiment * 100.0));
    assert Tier(m.genre, probability) == tier;
    var r1 := AppendExplanation([tier], true, star);
    assert r1 == [tier, star];
    var r2 := AppendExplanation(r1, true, peak);
    assert r2 == [tier, star, peak];
    assert AppendExplanation(r2, true, trailer) == [tier, star, peak, trailer];
  }

  /** Apart from the tier sentence, only the four rule sentences, with this movie's values, can appear. */
  lemma ExplanationHasNothingElse(m: MovieInput, f: EngineeredFeatures, probability: real)
    ensures var r := GenerateExplanation(m, f, probability);
      forall i :: 1 <= i < |r| ==>
        r[i] in {StarPower(m.leadActorPopularity), PeakSeason(m.releaseMonth),
                 TrailerAnticipation(Round(m.trailerSentiment * 100.0)), HighBudgetBreakEven(m.budget)}
  {
    var r := GenerateExplanation(m, f, probability);
    var r3 := ExplanationPrefix(m, f, probability);
    forall i | 1 <= i < |r|
      ensures r[i] in {StarPower(m.leadActorPopularity), PeakSeason(m.releaseMonth),
                       TrailerAnticipation(Round(m.trailerSentiment * 100.0)), HighBudgetBreakEven(m.budget)}
    {
      if i < |r3| {
        assert r[i] == r3[i] && r3[i] in r3;
        assert r3[0].Rank() < r3[i].Rank();
      }
    }
  }

  /** Ranks strictly increase along the list. */
  predicate ExplanationsOrdered(r: seq<Explanation>) {
    forall i, j :: 0 <= i < j < |r| ==> r[i].Rank() < r[j].Rank()
  }

  /** Appends `x` when its rule fires; `x`'s rule comes after every rule already in `acc`. */
  function AppendExplanation(acc: seq<Explanation>, fires: bool, x: Explanation): (r: seq<Explanation>)
    requires ExplanationsOrdered(acc)
    requires forall y :: y in acc ==> y.Rank() < x.Rank()
    ensures r == acc + When(fires, x)
    ensures forall y :: y in r <==> y in acc || (fires && y == x)
    ensures ExplanationsOrdered(r)
    ensures forall y :: y in r ==> y.Rank() <= x.Rank()
  {
    acc + When(fires, x)
  }

  /** The five recommendation rules, in order. */
  predicate TimingWeak(f: EngineeredFeatures) { f.releaseTimingAdvantage < 0.6 }
  predicate BuzzWeak(m: MovieInput) { m.socialBuzz < 60.0 }
  predicate TrailerWeak(m: MovieInput) { m.trailerSentiment < 0.4 }
  predicate WeakCastForBudget(m: MovieInput, f: EngineeredFeatures) {
    f.actorImpactScore < 0.5 && m.budget > 80.0
  }
  predicate StrongOnSmallBudget(m: MovieInput, probability: real) {
    probability >= 70.0 && m.budget < 100.0
  }

  /** The recommendations: one per rule that fires, or the single fallback when none does. */
  function GenerateRecommendations(m: MovieInput, f: EngineeredFeatures, probability: real): (r: seq<Recommendation>)
    ensures 1 <= |r| <= 5
    ensures MoveReleaseWindow in r <==> TimingWeak(f)
    ensures IncreaseSocialMarketing in r <==> BuzzWeak(m)
    ensures ReviewTrailerCut in r <==> TrailerWeak(m)
    ensures AddRecognizableTalent in r <==> WeakCastForBudget(m, f)
    ensures AdditionalMarketing in r <==> StrongOnSmallBudget(m, probability)
    // The fallback appears exactly when no rule fired, and then alone.
    ensures StrategyWellAligned in r <==>
      !(TimingWeak(f) || BuzzWeak(m) || TrailerWeak(m) || WeakCastForBudget(m, f)
        || StrongOnSmallBudget(m, probability))
    ensures StrategyWellAligned in r ==> r == [StrategyWellAligned]
    ensures RecommendationsOrdered(r)
  {
    var fired := FiredRecommendations(m, f, probability);
    if |fired| == 0 then [StrategyWellAligned] else fired
  }

  /** The rule recommendations alone, before the fallback is considered. */
  function FiredRecommendations(m: MovieInput, f: EngineeredFeatures, probability: real): (r: seq<Recommendation>)
    ensures |r| <= 5
    ensures MoveReleaseWindow in r <==> TimingWeak(f)
    ensures IncreaseSocialMarketing in r <==> BuzzWeak(m)
    ensures ReviewTrailerCut in r <==> TrailerWeak(m)
    ensures AddRecognizableTalent in r <==> WeakCastForBudget(m, f)
    ensures AdditionalMarketing in r <==> StrongOnSmallBudget(m, probability)
    ensures StrategyWellAligned !in r
    ensures RecommendationsOrdered(r)
  {
    var r1 := When(TimingWeak(f), MoveReleaseWindow);
    var r2 := AppendRecommendation(r1, BuzzWeak(m), IncreaseSocialMarketing);
    var r3 := AppendRecommendation(r2, TrailerWeak(m), ReviewTrailerCut);
    var r4 := AppendRecommendation(r3, WeakCastForBudget(m, f), AddRecognizableTalent);
    AppendRecommendation(r4, StrongOnSmallBudget(m, probability), AdditionalMarketing)
  }

  /** Ranks strictly increase along the list. */
  predicate RecommendationsOrdered(r: seq<Recommendation>) {
    forall i, j :: 0 <= i < j < |r| ==> r[i].Rank() < r[j].Rank()
  }

  /** Appends `x` when its rule fires; `x`'s rule comes after every rule already in `acc`. */
  function AppendRecommendation(acc: seq<Recommendation>, fires: bool, x: Recommendation): (r: seq<Recommendation>)
    requires RecommendationsOrdered(acc)
    requires forall y :: y in acc ==> y.Rank() < x.Rank()
    ensures r == acc + When(fires, x)
    ensures forall y :: y in r <==> y in acc || (fires && y == x)
    ensures RecommendationsOrdered(r)
    ensures forall y :: y in r ==> y.Rank() <= x.Rank()
  {
    acc + When(fires, x)
  }
}

=== FILE: prediction_engine.dfy ===
/** The whole prediction: features once, then the probability, the financial estimates and the
    explanation layer, all read from the same features and the same unrounded probability. */
module PredictionEngine {
  import opened Rounding
  import opened LookupTable
  import opened MovieData
  import opened Features
  import opened Probability
  import opened Financial
  import opened FeatureImportance
  import opened Narrative

  datatype PredictionResult = PredictionResult(
    successProbability: real,
    riskLevel: RiskLevel,
    estimatedRevenue: RevenueEstimate,
    revenueAtRisk: int,
    featureImportance: seq<FeatureContribution>,
    explanation: seq<Explanation>,
    recommendations: seq<Recommendation>)

  /** The clamped probability before rounding, as every later stage reads it. */
  function ClampedProbability(m: MovieInput): (p: real)
    ensures MinProbability <= p <= MaxProbability
  {
    SuccessProbability(EngineerFeatures(m), m.runtime)
  }

  function PredictMovieSuccess(m: MovieInput): (r: PredictionResult)
    // The reported probability: one decimal, in [5, 98], within 0.05 of the value the rest reads.
    ensures MinProbability <= r.successProbability <= MaxProbability
    ensures OneDecimal(r.successProbability)
    ensures ClampedProbability(m) - 0.05 < r.successProbability <= ClampedProbability(m) + 0.05
    // The risk tier is taken from the unrounded probability.
    ensures r.riskLevel == GetRiskLevel(ClampedProbability(m), m.budget)
    // Revenue figures are ordered and non-negative, and so is the amount at risk, for any budget >= 0.
    ensures m.budget >= 0.0 ==>
      0 <= r.estimatedRevenue.min <= r.estimatedRevenue.expected <= r.estimatedRevenue.max
    ensures m.budget >= 0.0 ==> r.revenueAtRisk >= 0
    // The ranking holds each of the eight features once, by non-increasing magnitude.
    ensures |r.featureImportance| == 8 && SortedByMagnitude(r.featureImportance)
    ensures forall ft :: CountFeature(r.featureImportance, ft) == 1
    ensures InDocumentedRange(m) ==> forall c :: c in r.featureImportance ==> -1.0 <= c.impact <= 1.0
    // The prose is never empty.
    ensures 1 <= |r.explanation| <= 5 && 1 <= |r.recommendations| <= 5
    // The explanation's opening tier never contradicts the risk tier.
    ensures r.explanation[0] == StrongIndicators(m.genre) ==> r.riskLevel != High
    ensures m.budget >= 0.0 && r.explanation[0] == ElevatedRisk ==> r.riskLevel != Low
  {
    var f := EngineerFeatures(m);
    var p := SuccessProbability(f, m.runtime);
    PredictionResult(
      ReportedProbability(p),
      GetRiskLevel(p, m.budget),
      EstimateRevenue(p, m.budget),
      RevenueAtRisk(m.budget, p),
      CalculateFeatureImportance(m, f),
      GenerateExplanation(m, f, p),
      GenerateRecommendations(m, f, p))
  }

  /** For inputs in their documented ranges the score before the clamp is in [0, 100], so the clamp
      only ever lifts a score below 5 or cuts one above 98. */
  lemma ScoreOnPercentScale(m: MovieInput)
    requires InDocumentedRange(m)
    ensures 0.0 <= Score(EngineerFeatures(m), m.runtime) * 100.0 <= 100.0
  {
    ScoreInUnit(EngineerFeatures(m), m.runtime);
  }

  /** Raising the lead actor's popularity never lowers the prediction (inputs in range). */
  lemma MorePopularActorNeverHurts(m: MovieInput, popularity: real)
    requires InDocumentedRange(m)
    requires m.leadActorPopularity <= popularity <= 100.0
    ensures ClampedProbability(m) <= ClampedProbability(m.(leadActorPopularity := popularity))
  {
    var m' := m.(leadActorPopularity := popularity);
    SuccessProbabilityMonotone(EngineerFeatures(m), EngineerFeatures(m'), m.runtime);
  }

  /** A better trailer reception never lowers the prediction (inputs in range). */
  lemma BetterTrailerNeverHurts(m: MovieInput, sentiment: real)
    requires InDocumentedRange(m)
    requires m.trailerSentiment <= sentiment <= 1.0
    ensures ClampedProbability(m) <= ClampedProbability(m.(trailerSentiment := sentiment))
  {
    var m' := m.(trailerSentiment := sentiment);
    SuccessProbabilityMonotone(EngineerFeatures(m), EngineerFeatures(m'), m.runtime);
  }

  /** Rounding only the reported value means it can sit on the other side of a threshold from the value
      the tiers use: 72.46 reports as 72.5, the Low bar for big budgets, yet is rated Medium. */
  lemma ReportedValueCanCrossRiskThreshold()
    ensures ReportedProbability(72.46) == 72.5
    ensures GetRiskLevel(72.46, 200.0) == Medium && GetRiskLevel(72.5, 200.0) == Low
  {
    RoundIsNearest(724.6, 725);
  }

  /** The features of the first sample movie ("Horizon's Edge"). */
  lemma HorizonsEdgeFeatures()
    ensures EngineerFeatures(SampleMovies[0])
         == EngineeredFeatures(0.70, 1.0, 0.85, 0.78, 0.35, 0.90, 0.86, 0.82, 0.0, 1.0)
  {
    var m := SampleMovies[0];
    assert m.genre == "Sci-Fi" && m.language == "English" && m.releaseMonth == 7 by { }
    SciFiIndex();
    EnglishReach();
    JulyAdvantage();
  }

  /** "Horizon's Edge": a probability of 73.56, reported as 73.6; the big budget puts the Low bar at
      72.5, which it clears. */
  lemma HorizonsEdgeExample()
    ensures var r := PredictMovieSuccess(SampleMovies[0]);
      && ClampedProbability(SampleMovies[0]) == 73.56
      && r.successProbability == 73.6
      && r.riskLevel == Low
      && r.estimatedRevenue == RevenueEstimate(191, 445, 318)
      && r.revenueAtRisk == 38
  {
    HorizonsEdgeFeatures();
    assert ClampedProbability(SampleMovies[0]) == 73.56;
    RoundIsNearest(735.6, 736);
    RoundIsNearest(317.7792, 318);
    RoundIsNearest(317.7792 * 0.6, 191);
    RoundIsNearest(317.7792 * 1.4, 445);
    RoundIsNearest(Loss(180.0, 73.56), 38);
  }

  /** "Horizon's Edge" opens with the strong tier and fires the star-power, peak-season and trailer
      sentences; no recommendation rule fires, so only the fallback is given. */
  lemma HorizonsEdgeNarrative()
    ensures var r := PredictMovieSuccess(SampleMovies[0]);
      && r.explanation == [StrongIndicators("Sci-Fi"), StarPower(85.0), PeakSeason(7), TrailerAnticipation(72)]
      && r.recommendations == [StrategyWellAligned]
  {
    HorizonsEdgeExample();
    HorizonsEdgeExplanation();
    HorizonsEdgeRecommendations();
  }

  lemma HorizonsEdgeExplanation()
    ensures GenerateExplanation(SampleMovies[0], EngineerFeatures(SampleMovies[0]), 73.56)
         == [StrongIndicators("Sci-Fi"), StarPower(85.0), PeakSeason(7), TrailerAnticipation(72)]
  {
    var m := SampleMovies[0];
    var f := EngineerFeatures(m);
    assert m.genre == "Sci-Fi" && m.leadActorPopularity == 85.0 && m.releaseMonth == 7 by { }
    assert f.actorImpactScore >= 0.7 && f.releaseTimingAdvantage >= 0.8 && m.trailerSentiment > 0.6 by {
      HorizonsEdgeFeatures();
    }
    assert Round(m.trailerSentiment * 100.0) == 72 by {
      RoundIsNearest(72.0, 72);
    }
    EveryExplanationRuleFires(m, f, 73.56);
  }

  lemma HorizonsEdgeRecommendations()
    ensures GenerateRecommendations(SampleMovies[0], EngineerFeatures(SampleMovies[0]), 73.56)
         == [StrategyWellAligned]
  {
    HorizonsEdgeFeatures();
  }

  /** The features of the third sample movie ("Whispers in the Dark"). */
  lemma WhispersInTheDarkFeatures()
    ensures EngineerFeatures(SampleMovies[2])
         == EngineeredFeatures(0.62, 1.0, 0.45, 0.55, 0.65, 0.60, 0.825, 0.72, 0.0, 0.0)
  {
    var m := SampleMovies[2];
    assert m.genre == "Horror" && m.language == "English" && m.releaseMonth == 10 by { }
    HorrorIndex();
    EnglishReach();
    OctoberAdvantage();
  }

  /** The table values the two worked samples look up. */
  lemma SciFiIndex()
    ensures LookupOrNeutral(GenreSuccessIndex, "Sci-Fi") == 0.70
  {
    GenreTableFacts();
    LookupAt(GenreSuccessIndex, 12);
  }

  lemma HorrorIndex()
    ensures LookupOrNeutral(GenreSuccessIndex, "Horror") == 0.62
  {
    GenreTableFacts();
    LookupAt(GenreSuccessIndex, 9);
  }

  lemma EnglishReach()
    ensures LookupOrNeutral(LanguageMultiplier, "English") == 1.0
  {
    LanguageTableFacts();
  }

  lemma JulyAdvantage()
    ensures LookupOrNeutral(ReleaseTimingAdvantage, 7) == 0.90
  {
    ReleaseTimingValues();
    LookupAt(ReleaseTimingAdvantage, 6);
  }

  lemma OctoberAdvantage()
    ensures LookupOrNeutral(ReleaseTimingAdvantage, 10) == 0.60
  {
    ReleaseTimingValues();
    LookupAt(ReleaseTimingAdvantage, 9);
  }

  /** "Whispers in the Dark": a probability of 57.275, reported as 57.3. The small budget relaxes the
      thresholds to 66.25 and 46.25, which still rates it Medium. */
  lemma WhispersInTheDarkExample()
    ensures var r := PredictMovieSuccess(SampleMovies[2]);
      && ClampedProbability(SampleMovies[2]) == 57.275
      && r.successProbability == 57.3
      && r.riskLevel == Medium
      && r.estimatedRevenue == RevenueEstimate(21, 48, 34)
      && r.revenueAtRisk == 9
  {
    WhispersInTheDarkFeatures();
    assert ClampedProbability(SampleMovies[2]) == 57.275;
    RoundIsNearest(572.75, 573);
    RoundIsNearest(34.365, 34);
    RoundIsNearest(34.365 * 0.6, 21);
    RoundIsNearest(34.365 * 1.4, 48);
    RoundIsNearest(Loss(25.0, 57.275), 9);
  }
}

=== FILE: probability.dfy ===
/** The probability model: a fixed-weight sum of nine signals, a language-reach factor,
    a runtime penalty, and a clamp to [5, 98] on the percentage scale. */
module Probability {
  import opened Rounding
  import opened Features

  const GenreWeight: real := 0.15
  const ActorWeight: real := 0.18
  const DirectorWeight: real := 0.12
  const BudgetRiskWeight: real := 0.10
  const TimingWeight: real := 0.12
  const SentimentWeight: real := 0.15
  const BuzzWeight: real := 0.10
  const FranchiseWeight: real := 0.05
  const AwardCrewWeight: real := 0.03

  /** The probability never goes below 5% or above 98%. */
  const MinProbability: real := 5.0
  const MaxProbability: real := 98.0

  /** The weights form a convex combination. */
  lemma WeightsSumToOne()
    ensures GenreWeight + ActorWeight + DirectorWeight + BudgetRiskWeight + TimingWeight
          + SentimentWeight + BuzzWeight + FranchiseWeight + AwardCrewWeight == 1.0
  {
  }

  /** The weighted sum of every signal except the language multiplier. */
  function WeightedSum(f: EngineeredFeatures): real {
    f.genreSuccessIndex * GenreWeight
    + f.actorImpactScore * ActorWeight
    + f.directorConsistencyScore * DirectorWeight
    + f.budgetRiskRatio * BudgetRiskWeight
    + f.releaseTimingAdvantage * TimingWeight
    + f.trailerSentimentNormalized * SentimentWeight
    + f.socialBuzzNormalized * BuzzWeight
    + f.franchiseBonus * FranchiseWeight
    + f.awardCrewBonus * AwardCrewWeight
  }

  /** A convex combination of [0, 1] signals stays in [0, 1]. */
  lemma WeightedSumInUnit(f: EngineeredFeatures)
    requires Normalized(f)
    ensures 0.0 <= WeightedSum(f) <= 1.0
  {
    WeightsSumToOne();
  }

  /** Language reach: even a zero-reach language keeps half of the score. */
  function LanguageFactor(languageMultiplier: real): (r: real)
    ensures InUnit(languageMultiplier) ==> 0.5 <= r <= 1.0
    ensures r == 1.0 <==> languageMultiplier == 1.0
    ensures r == 0.5 <==> languageMultiplier == 0.0
  {
    0.5 + 0.5 * languageMultiplier
  }

  /** Runtimes strictly outside [80, 180] minutes are penalised. */
  predicate RuntimePenalised(runtime: real) {
    runtime < 80.0 || runtime > 180.0
  }

  function RuntimeFactor(runtime: real): (r: real)
    ensures r == 0.9 <==> RuntimePenalised(runtime)
    ensures r == 1.0 <==> 80.0 <= runtime <= 180.0
  {
    if RuntimePenalised(runtime) then 0.9 else 1.0
  }

  /** The closed boundary: 80 and 180 minutes are not penalised, anything beyond them is. */
  lemma RuntimeBoundaries(eps: real)
    requires eps > 0.0
    ensures !RuntimePenalised(80.0) && !RuntimePenalised(180.0)
    ensures RuntimePenalised(80.0 - eps) && RuntimePenalised(180.0 + eps)
  {
  }

  /** The score on the 0..1 scale, after the two adjustments and before the clamp. */
  function Score(f: EngineeredFeatures, runtime: real): real {
    Scaled(WeightedSum(f), LanguageFactor(f.languageMultiplier), RuntimeFactor(runtime))
  }

  /** The weighted sum scaled by the language factor and then by the runtime factor. */
  function Scaled(sum: real, language: real, runtime: real): real {
    sum * language * runtime
  }

  /** Normalised signals give a score in [0, 1]. */
  lemma ScoreInUnit(f: EngineeredFeatures, runtime: real)
    requires Normalized(f)
    ensures 0.0 <= Score(f, runtime) <= 1.0
  {
    var w, l, k := WeightedSum(f), LanguageFactor(f.languageMultiplier), RuntimeFactor(runtime);
    WeightedSumInUnit(f);
    ScaledInUnit(w, l, k);
    assert Score(f, runtime) == Scaled(w, l, k);
  }

  lemma ScaledInUnit(sum: real, language: real, runtime: real)
    requires 0.0 <= sum <= 1.0 && 0.0 <= language <= 1.0 && 0.0 <= runtime <= 1.0
    ensures 0.0 <= Scaled(sum, language, runtime) <= 1.0
  {
    var p := sum * language;
    ProductInUnit(sum, language);
    ProductInUnit(p, runtime);
    assert Scaled(sum, language, runtime) == p * runtime;
  }

  lemma ProductInUnit(a: real, b: real)
    requires 0.0 <= a <= 1.0 && 0.0 <= b <= 1.0
    ensures 0.0 <= a * b <= 1.0
  {
    assert 0.0 <= a * b;
    assert (1.0 - a) * b >= 0.0;
    assert a * b <= b;
  }

  /** `min(max(x, lo), hi)`. */
  function Clamp(x: real, lo: real, hi: real): (r: real)
    requires lo < hi
    ensures lo <= r <= hi
    ensures lo < x < hi ==> r == x
    ensures r == lo <==> x <= lo
    ensures r == hi <==> x >= hi
  {
    if x < lo then lo else if x > hi then hi else x
  }

  /** The success probability in percent, clamped but not rounded: the value the financial estimates
      and the narrative rules read. */
  function SuccessProbability(f: EngineeredFeatures, runtime: real): (p: real)
    ensures MinProbability <= p <= MaxProbability
  {
    Clamp(Score(f, runtime) * 100.0, MinProbability, MaxProbability)
  }

  /** The reported probability: one decimal place, still in [5, 98], within 0.05 of the unrounded value. */
  function ReportedProbability(p: real): (r: real)
    requires MinProbability <= p <= MaxProbability
    ensures MinProbability <= r <= MaxProbability
    ensures p - 0.05 < r <= p + 0.05
    ensures OneDecimal(r)
  {
    RoundToTenthWithin(p, 50, 980);
    RoundToTenth(p)
  }

  /** The probability never decreases when any weighted signal or the language reach rises
      (runtime fixed). */
  lemma SuccessProbabilityMonotone(f1: EngineeredFeatures, f2: EngineeredFeatures, runtime: real)
    requires Normalized(f1) && Normalized(f2)
    requires f1.genreSuccessIndex <= f2.genreSuccessIndex
    requires f1.languageMultiplier <= f2.languageMultiplier
    requires f1.actorImpactScore <= f2.actorImpactScore
    requires f1.directorConsistencyScore <= f2.directorConsistencyScore
    requires f1.budgetRiskRatio <= f2.budgetRiskRatio
    requires f1.releaseTimingAdvantage <= f2.releaseTimingAdvantage
    requires f1.trailerSentimentNormalized <= f2.trailerSentimentNormalized
    requires f1.socialBuzzNormalized <= f2.socialBuzzNormalized
    requires f1.franchiseBonus <= f2.franchiseBonus
    requires f1.awardCrewBonus <= f2.awardCrewBonus
    ensures SuccessProbability(f1, runtime) <= SuccessProbability(f2, runtime)
  {
    ScoreMonotone(f1, f2, runtime);
  }

  lemma ScoreMonotone(f1: EngineeredFeatures, f2: EngineeredFeatures, runtime: real)
    requires Normalized(f1) && Normalized(f2)
    requires f1.genreSuccessIndex <= f2.genreSuccessIndex
    requires f1.languageMultiplier <= f2.languageMultiplier
    requires f1.actorImpactScore <= f2.actorImpactScore
    requires f1.directorConsistencyScore <= f2.directorConsistencyScore
    requires f1.budgetRiskRatio <= f2.budgetRiskRatio
    requires f1.releaseTimingAdvantage <= f2.releaseTimingAdvantage
    requires f1.trailerSentimentNormalized <= f2.trailerSentimentNormalized
    requires f1.socialBuzzNormalized <= f2.socialBuzzNormalized
    requires f1.franchiseBonus <= f2.franchiseBonus
    requires f1.awardCrewBonus <= f2.awardCrewBonus
    ensures Score(f1, runtime) <= Score(f2, runtime)
  {
    WeightedSumInUnit(f1);
    WeightedSumMonotone(f1, f2);
    ProductMonotone(WeightedSum(f1), WeightedSum(f2),
                    LanguageFactor(f1.languageMultiplier), LanguageFactor(f2.languageMultiplier),
                    RuntimeFactor(runtime));
  }

  lemma WeightedSumMonotone(f1: EngineeredFeatures, f2: EngineeredFeatures)
    requires f1.genreSuccessIndex <= f2.genreSuccessIndex
    requires f1.actorImpactScore <= f2.actorImpactScore
    requires f1.directorConsistencyScore <= f2.directorConsistencyScore
    requires f1.budgetRiskRatio <= f2.budgetRiskRatio
    requires f1.releaseTimingAdvantage <= f2.releaseTimingAdvantage
    requires f1.trailerSentimentNormalized <= f2.trailerSentimentNormalized
    requires f1.socialBuzzNormalized <= f2.socialBuzzNormalized
    requires f1.franchiseBonus <= f2.franchiseBonus
    requires f1.awardCrewBonus <= f2.awardCrewBonus
    ensures WeightedSum(f1) <= WeightedSum(f2)
  {
  }

  lemma ClampMonotone(x: real, y: real, lo: real, hi: real)
    requires lo < hi && x <= y
    ensures Clamp(x, lo, hi) <= Clamp(y, lo, hi)
  {
  }

  lemma ProductMonotone(w1: real, w2: real, l1: real, l2: real, k: real)
    requires 0.0 <= w1 <= w2 && 0.0 <= l1 <= l2 && 0.0 <= k
    ensures 0.0 <= Scaled(w1, l1, k) <= Scaled(w2, l2, k)
  {
    assert w1 * l1 <= w2 * l2 by {
      assert w1 * l1 <= w1 * l2;
    }
  }
}

=== FILE: rounding.dfy ===
/** Rounding as the engine performs it on exact reals. */
module Rounding {

  /** JavaScript's `Math.round`: the nearest integer, a half rounded up towards +infinity. */
  function Round(x: real): (n: int)
    ensures x - 0.5 < n as real <= x + 0.5
  {
    (x + 0.5).Floor
  }

  /** `x` has at most one decimal place. */
  predicate OneDecimal(x: real) {
    (x * 10.0).Floor as real == x * 10.0
  }

  /** `Math.round(x * 10) / 10`: the value rounded to one decimal place. */
  function RoundToTenth(x: real): (r: real)
    ensures x - 0.05 < r <= x + 0.05
    ensures OneDecimal(r)
  {
    Round(x * 10.0) as real / 10.0
  }

  /** The contract of Round pins its result down: at most one integer lies in (x - 1/2, x + 1/2]. */
  lemma RoundIsNearest(x: real, n: int)
    requires x - 0.5 < n as real <= x + 0.5
    ensures n == Round(x)
  {
  }

  /** Rounding never reverses an order. */
  lemma RoundMonotone(x: real, y: real)
    requires x <= y
    ensures Round(x) <= Round(y)
  {
  }

  /** A value already on a one-decimal grid point is left alone, so rounding to tenths is idempotent. */
  lemma RoundToTenthIdempotent(x: real)
    ensures RoundToTenth(RoundToTenth(x)) == RoundToTenth(x)
  {
    var r := RoundToTenth(x);
    var n := Round(x * 10.0);
    assert r * 10.0 == n as real;
    RoundIsNearest(r * 10.0, n);
  }

  /** Rounding to tenths keeps a value inside any interval whose ends are on the one-decimal grid. */
  lemma RoundToTenthWithin(x: real, lo: int, hi: int)
    requires lo as real / 10.0 <= x <= hi as real / 10.0
    ensures lo as real / 10.0 <= RoundToTenth(x) <= hi as real / 10.0
  {
    RoundMonotone(lo as real, x * 10.0);
    RoundMonotone(x * 10.0, hi as real);
    RoundIsNearest(lo as real, lo);
    RoundIsNearest(hi as real, hi);
  }
}
